=== FILE: README.md ===
# Wellness and study planner — a Dafny model of its core

The planner is a small Streamlit app (`app.py`). A user enters a name and
the app then does the following:

- keeps a daily visit streak in `<name>_streak.txt`;
- answers the chosen mood and study hours with fixed messages;
- appends the day's goals as a dated block to `<name>_goals.txt`;
- reads that log back in two ways: the goals saved today, for the
  completion checkboxes, and the last few entries, for the history view;
- appends the goals marked done to `<name>_completed.txt`.

This project models these operations as pure Dafny functions and proves what
they promise.

| module | file | models |
|---|---|---|
| `Wrappers` | `wrappers.dfy` | `Option` and `Result` |
| `Text` | `text.dfy` | `str.strip`, `str.split`, `splitlines`/`readlines`, `str.startswith` and `str(n)`, as Python defines them for these inputs |
| `Streak` | `streak.dfy` | `update_streak` |
| `Advice` | `advice.dfy` | `suggest_plan`, `mood_response` |
| `GoalLog` | `goal_log.dfy` | `save_goals`, the completion writer, the goal filter |
| `TodayGoals` | `today_goals.dfy` | `get_today_goals` |
| `PastGoals` | `past_goals.dfy` | `read_past_goals`, exactly as written |

The model treats its inputs as follows:

- A file is a value. A missing file is `None`, and appending to it creates
  it.
- The clock becomes a parameter. The streak works on day numbers, so
  "yesterday" is `today - 1`. The goal logs take the date as the text that
  `strftime("%Y-%m-%d")` renders, and `IsoDate` gives its shape.
- A streak file that does not parse makes the source raise. The model
  returns `Failure(UnreadableRecord)` for it instead.

`read_past_goals` is modelled as the code is written, not as its names
suggest. The page shows its result under "Your Last 3 Days of Goals"
(app.py:128), it takes `days=3` by default (app.py:70), and it collects
`(date_line, goals)` pairs into `goal_entries` (app.py:81-89): one dated pair
per saved day is what these names lead a reader to expect. The code,
however, splits the whole log on every `---`, and that cuts the header line
`--- YYYY-MM-DD ---` apart:

- The date ends up in a piece of its own. That piece has no `Goal` line, so
  it is dropped.
- Within each block, the first `Goal 1: …` line takes the place of the date.
- A block with a single goal disappears.
- Every line kept is stripped (app.py:86-87), so trailing whitespace in a goal
  is gone from the `Goal i: …` line read back.

`PastGoals.PastEntriesOfFirstSave`, `PastGoals.PastGoalsOfFirstSave` and
`PastGoals.SingleGoalBlockDropped` state this outcome exactly for the first
block saved to a log, whatever the goals hold besides line breaks and runs
of three dashes.

## Model

| member | source | states |
|---|---|---|
| Streak.UpdateStreak | app.py:8-34 | An unreadable record and nothing else fails. After a call the file holds today's date and the returned count. The file is rewritten unless the stored day is today. The count is stored+1 after a visit yesterday, unchanged on the same day, and 1 otherwise (first visit, a gap, or a future date). |
| Streak.SameDayIdempotent | app.py:26-27 | A second call on the same day returns the same count and writes nothing. |
| Streak.StreakStaysPositive | app.py:13-34 | Starting from no file or a positive count, every call returns and stores a count of at least 1. |
| Streak.ConsecutiveDaysExtend | app.py:24-25 | After a visit stored for the day before, visits on n consecutive days raise the count by exactly n. |
| Streak.ConsecutiveDaysFromScratch | app.py:13-34 | A new user who visits on n ≥ 1 consecutive days has a streak of n, stored under the last day. |
| Streak.MissedDayResets | app.py:28-29 | If the last visit was two or more days ago, the streak restarts at 1 and is written under today. |
| Advice.SuggestPlan | app.py:43-50 | The light plan is chosen exactly when hours ≤ 1, the medium plan exactly for 2..3 hours, and the full plan exactly when hours ≥ 4. |
| Advice.SuggestPlanMonotone | app.py:45-50 | More hours never give a lighter plan. |
| Advice.MoodResponse | app.py:52-59 | The reply is one of the four messages. Each of Sad, Happy and Anxious gets its own message exactly when chosen. Every other mood gets the "Other" message. |
| Advice.UnknownMoodIsOther | app.py:59 | A mood outside the table is answered like "Other". |
| Text.Strip | app.py:76 | The stripped text neither starts nor ends with whitespace. |
| Text.StripBlank | app.py:152 | A text strips to nothing exactly when it consists of whitespace only. |
| Text.StripOpen | app.py:79 | A piece with whitespace around it that starts with a non-space strips to the piece with only its trailing whitespace removed. |
| Text.StripFrame | app.py:86 | Whitespace around a text that has no whitespace at its ends is removed, and nothing else is. |
| Text.LeadingSpaceIsSpace | app.py:76 | What stripping removes at the front is whitespace. |
| Text.TrailingSpaceIsSpace | app.py:76 | What stripping removes at the back is whitespace. |
| Text.Split | app.py:78 | A split yields at least one piece. |
| Text.JoinSplit | app.py:78 | Joining the pieces with the separator gives back the text. |
| Text.SplitAt | app.py:78 | Splitting on one character distributes over each occurrence of that character. |
| Text.SplitPiecesHaveNoSep | app.py:83 | No piece of a split on one character contains that character. |
| Text.Lines | app.py:83 | A text has no lines exactly when it is empty. |
| Text.LinesJoin | app.py:98 | Joining the lines with newlines gives back the text, except for one final newline. |
| Text.LinesHaveNoNewline | app.py:98 | No line holds a newline. |
| Text.DecimalString | app.py:67 | The number is written as digits only, with no leading zero. |
| Text.DecimalRoundTrip | app.py:67 | Reading the digits back gives the number. |
| Text.AbsentFromLinesAbsentFromPieces | app.py:98-104 | The only piece of the log that is not a line of it is the empty piece after the final newline, so it can never match a header. |
| GoalLog.AppendBlock | app.py:64-68 | The old log is kept as a prefix. Read line by line, the new log is the old pieces, then the header, the body lines, the footer, and the empty text after the final newline. |
| GoalLog.SaveGoals | app.py:61-68 | The old log is kept as a prefix. Read line by line, the new log is the old pieces, then the header, one `Goal i: g` line per goal in order, the footer, and the empty text after the final newline. |
| GoalLog.SaveCompleted | app.py:177-182 | Same as `SaveGoals`, with each completed goal written verbatim as its own line. |
| GoalLog.GoalLines | app.py:66-67 | One line per goal, in the order given; line `i` is `Goal (first+i): goals[i]`. |
| GoalLog.GoalLineReadBack | app.py:67 | A goal line is `Goal `, then the number in decimal (which reads back as that number), then `: `, then the goal verbatim. |
| GoalLog.AppendedLines | app.py:64-68 | The text of an appended block starts with the old log and splits into its lines. |
| GoalLog.SplitTerminated | app.py:66-68 | Lines written each followed by a newline split back into those lines plus the empty text after the last newline. |
| GoalLog.GoalLineIsStripped | app.py:67 | For a plain goal (non-empty, one line, no `\r`, no trailing whitespace), the goal line is its own strip and starts with `Goal`. |
| GoalLog.FooterShape | app.py:68 | The footer strips to itself, starts with a dash and is not a goal line. |
| GoalLog.FilterGoals | app.py:152 | Every kept input is a non-blank input, every non-blank input is kept, and nothing is added. |
| GoalLog.FilterGoalsAppend | app.py:152 | Input order is kept: filtering two lists one after the other gives what each keeps, in turn. |
| GoalLog.FilterGoalsSingle | app.py:152 | One input comes out once when it is not blank, and not at all when it is. |
| GoalLog.FilterGoalsEmptyIffAllBlank | app.py:152-159 | Nothing is kept exactly when every input is blank, which is the "enter at least one goal" case. |
| TodayGoals.ScanToday | app.py:100-112 | The loop returns no more lines than it reads. Each returned line is a stripped line starting with `Goal`. Nothing is returned if today's header never appears. Which lines of the block are returned is fixed by `ScanBlockStep`, `ScanPassesBlock`, `ScanStopsAtDash` and `ScanSkips`. |
| TodayGoals.GetTodayGoals | app.py:92-112 | A missing file, or a log without today's header, gives no goals. Each result is a stripped `Goal` line of the log. `TodayBlockClosed` and `TodayBlockOpen` give the exact result for the first block of today. |
| TodayGoals.SaveThenGetToday | app.py:61-112 | Saving plain goals on a day with no block yet, then reading today's goals, gives exactly the numbered goal lines in input order. |
| TodayGoals.LinesOfTwoSaves | app.py:61-68 | Read line by line, a log saved twice on one day is the old lines, the first block, one empty line, then the second block. |
| TodayGoals.SaveTwiceSameDay | app.py:61-112 | Saving twice on the same day, then reading today's goals, gives the first save's goal lines only. |
| TodayGoals.ReadBackBlock | app.py:100-111 | Lines without today's header, then a block opened by it, then anything: the result is the block's goal lines. |
| TodayGoals.ScanSkips | app.py:102-106 | Lines before today's header contribute nothing. |
| TodayGoals.TodayBlockClosed | app.py:100-112 | Lines without today's header, a line that strips to it, a block in which no line is dash-led (a repeated header aside), then a dash-led line: the result is exactly the block's stripped `Goal` lines, whatever follows. Blank lines, other text and a repeated header inside the block are read past. |
| TodayGoals.TodayBlockOpen | app.py:100-112 | The same for a block that runs to the end of the log, as an interrupted save leaves it: the result is the block's stripped `Goal` lines. |
| TodayGoals.ReadBlockThen | app.py:100-111 | After lines without the header and a line that strips to it, a run of lines none of which is dash-led contributes its stripped `Goal` lines, and reading goes on inside the block after it. |
| TodayGoals.ScanPassesBlock | app.py:103-111 | Inside the block, a run of lines none of which is dash-led (a repeated header aside) contributes its stripped `Goal` lines, in order, and the scan carries on after it. |
| TodayGoals.ScanBlockStep | app.py:103-111 | Inside the block, a line that strips to the header or to anything not dash-led is read past; it contributes its strip when that starts with `Goal`, and nothing otherwise. |
| TodayGoals.ScanStopsAtDash | app.py:107-111 | After the header, goal lines are collected up to the first line that strips to something starting with a dash other than the header. Nothing after that line is read. |
| PastGoals.NonBlank | app.py:79 | Each kept piece is the non-empty strip of some piece, and every piece with a non-empty strip contributes it. |
| PastGoals.NonBlankAppend | app.py:79 | Piece order is kept: two runs of pieces give what each gives, in turn. |
| PastGoals.NonBlankSingle | app.py:79 | One piece gives its strip when that is non-empty, and nothing otherwise. |
| GoalLog.CollectGoals | app.py:87 | Each goal is the strip of some line and starts with `Goal`, and every line whose strip starts with `Goal` contributes it. |
| GoalLog.CollectGoalsAppend | app.py:87 | Line order is kept: two runs of lines give what each gives, in turn. |
| GoalLog.CollectGoalsSingle | app.py:87 | One line gives its strip when that starts with `Goal`, and nothing otherwise. |
| PastGoals.ParseEntry | app.py:83-89 | A piece is kept exactly when it has a non-blank first line and at least one `Goal` line after it. A kept pair is the stripped first line plus exactly the goals collected from the lines after it. |
| PastGoals.PastEntries | app.py:75-89 | Every pair parsed from a log has a date line and at least one goal, and every goal starts with `Goal`. |
| PastGoals.ParseEntries | app.py:81-89 | The kept pairs are well formed, and there are no more of them than pieces. |
| PastGoals.SliceFrom | app.py:90 | Python's `xs[start:]` is a suffix whose length follows Python's clamping for negative and out-of-range starts. |
| PastGoals.ReadPastGoals | app.py:70-90 | A missing file gives nothing. The result is a suffix of all the parsed pairs, and every pair has a date line and at least one goal. For days ≥ 1 the result holds min(days, all) pairs. For days = 0 it holds all of them. For a negative days it holds all but the first −days pairs, or none. |
| PastGoals.PastEntriesOfFirstSave | app.py:61-89 | The pairs parsed from the first block ever saved: the stripped first goal line as the "date" and the other goal lines, stripped, as goals; nothing when the block has fewer than two goals. Blank goals and goals with surrounding whitespace are included. |
| PastGoals.PastGoalsOfFirstSave | app.py:61-90 | `read_past_goals` on that log gives exactly those pairs for any `days` ≥ 0, and nothing for a negative `days`. |
| PastGoals.SingleGoalBlockDropped | app.py:78-90 | When the first block of a new log holds a single goal, whatever its text, the history is empty for every `days`. |
| PastGoals.PiecesOfBlock | app.py:65-78 | Splitting a block on `---` gives an empty piece, the date between spaces, the goal text, six empty pieces and a lone dash. |
| PastGoals.ParseJoinedGoalLines | app.py:83-89 | The goal piece, stripped, parses to its first goal line as the date and the rest as goals, all stripped, or to nothing when it holds one goal. |
| PastGoals.ParseTrimmedJoin | app.py:83-89 | Lines that strip to `Goal` lines, joined and stripped at the end, parse to the first as date and the others as goals, each stripped; a single line parses to nothing. |

## Left out

- The Streamlit interface (app.py:116-189) is left out: page setup, inputs, buttons, messages. The slider's 0..10 range is not imposed on `SuggestPlan`.
- `random.choice(quotes)` (app.py:36-41, 163) is left out because randomness is outside the model.
- File names (`f"{name}_goals.txt"` and the like) and file I/O are left out. Each file is an `Option<string>` parameter or result.
- The clock is left out. `datetime.now()` becomes the `today` parameter: a day number for the streak, and the rendered `YYYY-MM-DD` text for the goal logs. Turning a day number into that text is not modelled.
- The text of the streak file (`f"{today}\n{count}"`, and `strptime`/`int` parsing it) is left out. The file is a parsed `Record`, or `Malformed` when parsing would raise.
- `int(hours)` (app.py:44) is left out: the hours are already an integer.
- Streak.UpdateStreak: does not model Python raising on a malformed record; such a record gives `Failure(UnreadableRecord)`.
- Line boundaries other than `'\n'` are left out: `Text.Lines` splits on `'\n'` only. A file opened in text mode also turns `'\r'` into a line end, so the round-trip lemmas require goals without `'\r'`. The `splitlines()` of `read_past_goals` (app.py:83) further breaks at `\v`, `\f`, `\x1c`-`\x1e`, `\x85`, `\u2028` and `\u2029`. A goal holding one of those is read back by the source as several lines, which the model does not reproduce; `PastGoals.PastEntriesOfFirstSave` and the lemmas after it therefore require goals free of all of these (`Text.NoLineBreak`).
- TodayGoals.SaveThenGetToday: it requires plain goals (non-empty, one line, no `'\r'`, no trailing whitespace) and no earlier block for the same day. Those are the cases where the source's reading gives the saved text back.
- TodayGoals.SaveTwiceSameDay: it requires the same of the first save. The second save's goals need only be one line each.
- PastGoals.PastGoalsOfFirstSave: it describes the first block saved to a new log, with goals that hold no line break and no three dashes in a row. A `---` inside a goal is cut by the split as well, which this lemma does not describe. A longer log repeats the same cutting, block by block, but no lemma states the result for it.
- PastGoals.SingleGoalBlockDropped: it is stated for the first block of a new log only, with a goal holding no line break and no three dashes in a row. A single-goal block further down a log is cut the same way, but that is not proved.
- The checkbox selection of completed goals (app.py:170-173) is left out: `SaveCompleted` takes the selected goals as given.
- Concurrency, meaning two sessions appending to the same file, is left out.

=== FILE: advice.dfy ===
/** The two advisory helpers: a study plan from the hours available
    (`suggest_plan`, app.py:43-50) and an encouragement for the chosen mood
    (`mood_response`, app.py:52-59). */
module Advice {

  const LightPlan: string := "Try a 25-min Pomodoro and 1 quick revision."
  const MediumPlan: string := "Plan: 2 Pomodoros, 10-min walk, then review notes."
  const FullPlan: string := "Go for 3 focused sessions. Practice + revise + relax."

  /** `suggest_plan(hours)` once `hours` is an integer. */
  function SuggestPlan(hours: int): (r: string)
    ensures r == LightPlan <==> hours <= 1
    ensures r == MediumPlan <==> 2 <= hours <= 3
    ensures r == FullPlan <==> hours >= 4
  {
    if hours <= 1 then LightPlan
    else if hours <= 3 then MediumPlan
    else FullPlan
  }

  /** How much study a plan asks for: 0, 1 or 2 sessions' worth. */
  function PlanLoad(plan: string): nat {
    if plan == LightPlan then 0 else if plan == MediumPlan then 1 else 2
  }

  /** More hours never yield a lighter plan. */
  lemma SuggestPlanMonotone(h1: int, h2: int)
    requires h1 <= h2
    ensures PlanLoad(SuggestPlan(h1)) <= PlanLoad(SuggestPlan(h2))
  {
  }

  const SadReply: string := "Hugs. Try journaling or a short walk today. 💚"
  const HappyReply: string := "That’s amazing! Ride the wave and conquer your goals! ⚡"
  const AnxiousReply: string := "Breathe in. Breathe out. You are not your thoughts. 🌬️"
  const OtherReply: string := "No matter what you're feeling, you’re doing your best 💪"

  /** The `moods` table of `mood_response`. */
  const Moods: map<string, string> :=
    map["Sad" := SadReply, "Happy" := HappyReply, "Anxious" := AnxiousReply, "Other" := OtherReply]

  /** `mood_response(mood)`: the table's reply for the mood, or the reply for
      "Other" when the mood is not in the table. */
  function MoodResponse(mood: string): (r: string)
    ensures r in {SadReply, HappyReply, AnxiousReply, OtherReply}
    ensures r == SadReply <==> mood == "Sad"
    ensures r == HappyReply <==> mood == "Happy"
    ensures r == AnxiousReply <==> mood == "Anxious"
    ensures r == OtherReply <==> mood !in {"Sad", "Happy", "Anxious"}
  {
    if mood in Moods then Moods[mood] else Moods["Other"]
  }

  /** Any mood outside the table is answered like "Other". */
  lemma UnknownMoodIsOther(mood: string)
    requires mood !in Moods
    ensures MoodResponse(mood) == MoodResponse("Other")
  {
  }
}

=== FILE: goal_log.dfy ===
/** Writing the per-user goal log and completion log (`save_goals`,
    app.py:61-68, and the completion writer, app.py:177-182), and choosing
    which goal inputs get saved (app.py:152).

    A log is its whole text; a log that does not exist yet is `None`, and
    appending to it creates it. The date is passed in already rendered by
    `strftime("%Y-%m-%d")`. */
module GoalLog {
  import opened Wrappers
  import opened Text

  /** The shape of a date rendered with `%Y-%m-%d`. */
  predicate IsoDate(d: string) {
    && |d| == 10 && d[4] == '-' && d[7] == '-'
    && forall i :: 0 <= i < 10 && i != 4 && i != 7 ==> IsDigit(d[i])
  }

  /** The line that opens a day's block. */
  function Header(today: string): string {
    "--- " + today + " ---"
  }

  /** The line of 22 dashes that closes a block. */
  const Footer: string := "----------------------"

  /** The line `Goal k: goal`. */
  function GoalLine(k: nat, goal: string): string {
    "Goal " + DecimalString(k) + ": " + goal
  }

  /** A goal line reads back as `Goal `, the number written in decimal, `: `,
      then the goal verbatim. */
  lemma GoalLineReadBack(k: nat, goal: string)
    ensures var l := GoalLine(k, goal); var d := DecimalString(k);
      && |l| == 7 + |d| + |goal|
      && l[..5] == "Goal "
      && l[5..5 + |d|] == d && DecimalValue(d) == k
      && l[5 + |d|..7 + |d|] == ": "
      && l[7 + |d|..] == goal
  {
    DecimalRoundTrip(k);
  }

  /** The numbered lines of `goals`, the first one numbered `first`. */
  function GoalLines(goals: seq<string>, first: nat): (r: seq<string>)
    ensures |r| == |goals|
    ensures forall i :: 0 <= i < |goals| ==> r[i] == GoalLine(first + i, goals[i])
  {
    if goals == [] then [] else [GoalLine(first, goals[0])] + GoalLines(goals[1..], first + 1)
  }

  /** The text of `lines`, each written followed by a newline. */
  function Terminated(lines: seq<string>): string {
    if lines == [] then [] else lines[0] + "\n" + Terminated(lines[1..])
  }

  /** What a file opened for appending holds before the write. */
  function Contents(file: Option<string>): string {
    file.GetOr([])
  }

  /** The text on one line of its own: no newline inside it. */
  predicate OneLine(s: string) {
    '\n' !in s
  }

  /** Appends a dated block: a blank line, the header, the body lines, the
      footer. The prior text is kept as it was, and read line by line the new
      text is the prior lines followed by the block's lines. */
  function AppendBlock(file: Option<string>, today: string, body: seq<string>): (r: string)
    ensures StartsWith(r, Contents(file))
    ensures OneLine(today) && (forall l :: l in body ==> OneLine(l))
      ==> Split(r, "\n") == Split(Contents(file), "\n") + [Header(today)] + body + [Footer, []]
  {
    AppendedLines(Contents(file), today, body);
    Contents(file) + "\n" + Header(today) + "\n" + Terminated(body) + Footer + "\n"
  }

  /** `save_goals(name, goals)` on day `today`. */
  function SaveGoals(file: Option<string>, today: string, goals: seq<string>): (r: string)
    ensures StartsWith(r, Contents(file))
    ensures OneLine(today) && (forall g :: g in goals ==> OneLine(g))
      ==> Split(r, "\n") == Split(Contents(file), "\n") + [Header(today)] + GoalLines(goals, 1) + [Footer, []]
  {
    GoalLinesOneLine(goals, 1);
    AppendBlock(file, today, GoalLines(goals, 1))
  }

  /** The completion writer: the checked goal labels of the day, verbatim,
      in one dated block. */
  function SaveCompleted(file: Option<string>, today: string, completed: seq<string>): (r: string)
    ensures StartsWith(r, Contents(file))
    ensures OneLine(today) && (forall l :: l in completed ==> OneLine(l))
      ==> Split(r, "\n") == Split(Contents(file), "\n") + [Header(today)] + completed + [Footer, []]
  {
    AppendBlock(file, today, completed)
  }

  /** A goal as typed into one input field, in the form that survives being
      written and read back: not empty, on one line, without a carriage
      return (which a file read in text mode turns into a line break), and
      not ending in whitespace (which reading strips). */
  predicate PlainGoal(g: string) {
    g != [] && '\n' !in g && '\r' !in g && !IsSpace(g[|g| - 1])
  }

  lemma GoalLineIsStripped(k: nat, g: string)
    requires PlainGoal(g)
    ensures Strip(GoalLine(k, g)) == GoalLine(k, g)
    ensures StartsWith(GoalLine(k, g), "Goal")
  {
    var l := GoalLine(k, g);
    assert l[0] == 'G';
    assert l[|l| - 1] == g[|g| - 1];
    StripIdentity(l);
  }

  /** The footer reads back as itself: a dash line, not a goal line. */
  lemma FooterShape()
    ensures Strip(Footer) == Footer
    ensures StartsWith(Footer, "-") && !StartsWith(Footer, "Goal")
  {
    StripIdentity(Footer);
    assert Footer[..1] == "-";
    assert Footer[..4][0] != "Goal"[0];
  }

  lemma IsoDateOneLine(d: string)
    requires IsoDate(d)
    ensures OneLine(d)
  {
  }

  /** The goal inputs that are saved: those that are not blank, in the order
      given. */
  function FilterGoals(inputs: seq<string>): (r: seq<string>)
    ensures |r| <= |inputs|
    ensures forall g :: g in r ==> g in inputs && Strip(g) != []
    ensures forall g :: g in inputs && Strip(g) != [] ==> g in r
  {
    if inputs == [] then []
    else (if Strip(inputs[0]) != [] then [inputs[0]] else []) + FilterGoals(inputs[1..])
  }

  /** Nothing is saved exactly when every input is blank. */
  lemma FilterGoalsEmptyIffAllBlank(inputs: seq<string>)
    ensures FilterGoals(inputs) == [] <==> forall g :: g in inputs ==> Strip(g) == []
  {
    if FilterGoals(inputs) != [] {
      var g := FilterGoals(inputs)[0];
      assert g in FilterGoals(inputs);
    }
  }

  /** Filtering one input in front of others. */
  lemma FilterGoalsHead(x: string, rest: seq<string>)
    ensures FilterGoals([x] + rest) == (if Strip(x) != [] then [x] else []) + FilterGoals(rest)
  {
    assert ([x] + rest)[0] == x;
    assert ([x] + rest)[1..] == rest;
  }

  /** Filtering keeps the relative order of the inputs: the goals kept from
      two lists one after the other are those kept from each, in turn. */
  lemma {:induction false} FilterGoalsAppend(a: seq<string>, b: seq<string>)
    ensures FilterGoals(a + b) == FilterGoals(a) + FilterGoals(b)
    decreases |a|
  {
    if a == [] {
      assert a + b == b;
    } else {
      var h := if Strip(a[0]) != [] then [a[0]] else [];
      assert a + b == [a[0]] + (a[1..] + b);
      assert a == [a[0]] + a[1..];
      FilterGoalsHead(a[0], a[1..] + b);
      FilterGoalsHead(a[0], a[1..]);
      FilterGoalsAppend(a[1..], b);
      ConcatAssoc(h, FilterGoals(a[1..]), FilterGoals(b));
    }
  }

  /** A single input is kept, once, exactly when it is not blank. */
  lemma FilterGoalsSingle(g: string)
    ensures Strip(g) != [] ==> FilterGoals([g]) == [g]
    ensures Strip(g) == [] ==> FilterGoals([g]) == []
  {
    assert [g][1..] == [];
  }

  lemma AppendedLines(prior: string, today: string, body: seq<string>)
    ensures var r := prior + "\n" + Header(today) + "\n" + Terminated(body) + Footer + "\n";
      && StartsWith(r, prior)
      && (OneLine(today) && (forall l :: l in body ==> OneLine(l))
          ==> Split(r, "\n") == Split(prior, "\n") + [Header(today)] + body + [Footer, []])
  {
    var r := prior + "\n" + Header(today) + "\n" + Terminated(body) + Footer + "\n";
    assert r[..|prior|] == prior;
    if OneLine(today) && (forall l :: l in body ==> OneLine(l)) {
      AppendedSplit(prior, Header(today), body, Footer);
    }
  }

  lemma AppendedSplit(prior: string, h: string, body: seq<string>, f: string)
    requires OneLine(h) && OneLine(f) && forall l :: l in body ==> OneLine(l)
    ensures Split(prior + "\n" + h + "\n" + Terminated(body) + f + "\n", "\n")
      == Split(prior, "\n") + [h] + body + [f, []]
  {
    var block := [h] + body + [f];
    BlockTerminated(prior, h, body, f);
    assert Split(prior + "\n" + Terminated(block), "\n") == Split(prior, "\n") + block + [[]] by {
      assert forall l :: l in block ==> OneLine(l);
      BlockSplit(prior, block);
    }
    var p := Split(prior, "\n");
    assert p + block == p + [h] + body + [f] by {
      ConcatAssoc(p, [h] + body, [f]);
      ConcatAssoc(p, [h], body);
    }
    ConcatAssoc(p + [h] + body, [f], [[]]);
  }

  /** The appended text is the block's lines, each followed by a newline. */
  lemma BlockTerminated(prior: string, h: string, body: seq<string>, f: string)
    ensures prior + "\n" + h + "\n" + Terminated(body) + f + "\n"
      == prior + "\n" + Terminated([h] + body + [f])
  {
    TerminatedAppend([h] + body, [f]);
    TerminatedAppend([h], body);
    assert Terminated([f]) == f + "\n";
    assert Terminated([h]) == h + "\n";
  }

  lemma BlockSplit(prior: string, block: seq<string>)
    ensures (forall l :: l in block ==> OneLine(l))
      ==> Split(prior + "\n" + Terminated(block), "\n") == Split(prior, "\n") + block + [[]]
  {
    if forall l :: l in block ==> OneLine(l) {
      SplitAt(prior, '\n', Terminated(block));
      SplitTerminated(block);
    }
  }

  lemma GoalLinesOneLine(goals: seq<string>, first: nat)
    ensures (forall g :: g in goals ==> OneLine(g))
      ==> forall l :: l in GoalLines(goals, first) ==> OneLine(l)
  {
    var lines := GoalLines(goals, first);
    forall l | l in lines && (forall g :: g in goals ==> OneLine(g))
      ensures OneLine(l)
    {
      var i :| 0 <= i < |lines| && lines[i] == l;
      assert goals[i] in goals;
      DecimalHasNoNewline(first + i);
    }
  }

  lemma {:induction false} TerminatedAppend(a: seq<string>, b: seq<string>)
    ensures Terminated(a + b) == Terminated(a) + Terminated(b)
    decreases |a|
  {
    if a == [] {
      assert a + b == b;
    } else {
      assert (a + b)[1..] == a[1..] + b;
      TerminatedAppend(a[1..], b);
    }
  }

  /** Splitting newline-terminated lines on newlines gives the lines back,
      then the empty text after the last newline. */
  lemma {:induction false} SplitTerminated(lines: seq<string>)
    requires forall l :: l in lines ==> OneLine(l)
    ensures Split(Terminated(lines), "\n") == lines + [[]]
    decreases |lines|
  {
    if lines == [] {
    } else {
      SplitAt(lines[0], '\n', Terminated(lines[1..]));
      assert lines[0] in lines;
      SplitNoSep(lines[0], '\n');
      SplitTerminated(lines[1..]);
      assert lines == [lines[0]] + lines[1..];
    }
  }

  lemma DecimalHasNoNewline(n: nat)
    ensures OneLine(DecimalString(n))
  {
  }

  /** The stripped lines that start with `Goal`, in order: what app.py:87
      keeps of a history piece, and what app.py:107-109 keeps of today's
      block. Order is kept (`CollectGoalsAppend`, `CollectGoalsSingle`). */
  function CollectGoals(lines: seq<string>): (r: seq<string>)
    ensures |r| <= |lines|
    ensures forall g :: g in r ==> StartsWith(g, "Goal") && g in StripAll(lines)
    ensures forall i :: 0 <= i < |lines| && StartsWith(Strip(lines[i]), "Goal") ==> Strip(lines[i]) in r
  {
    if lines == [] then []
    else
      var l := Strip(lines[0]);
      (if StartsWith(l, "Goal") then [l] else []) + CollectGoals(lines[1..])
  }

  lemma CollectGoalsHead(x: string, rest: seq<string>)
    ensures CollectGoals([x] + rest)
      == (if StartsWith(Strip(x), "Goal") then [Strip(x)] else []) + CollectGoals(rest)
  {
    assert ([x] + rest)[0] == x;
    assert ([x] + rest)[1..] == rest;
  }

  /** The goal lines collected from two runs of lines one after the other are
      those of each run, in turn. */
  lemma {:induction false} CollectGoalsAppend(a: seq<string>, b: seq<string>)
    ensures CollectGoals(a + b) == CollectGoals(a) + CollectGoals(b)
    decreases |a|
  {
    if a == [] {
      assert a + b == b;
    } else {
      var h := if StartsWith(Strip(a[0]), "Goal") then [Strip(a[0])] else [];
      assert a + b == [a[0]] + (a[1..] + b);
      assert a == [a[0]] + a[1..];
      CollectGoalsHead(a[0], a[1..] + b);
      CollectGoalsHead(a[0], a[1..]);
      CollectGoalsAppend(a[1..], b);
      ConcatAssoc(h, CollectGoals(a[1..]), CollectGoals(b));
    }
  }

  /** One line contributes its strip exactly when that starts with `Goal`. */
  lemma CollectGoalsSingle(l: string)
    ensures StartsWith(Strip(l), "Goal") ==> CollectGoals([l]) == [Strip(l)]
    ensures !StartsWith(Strip(l), "Goal") ==> CollectGoals([l]) == []
  {
    assert [l][1..] == [];
  }

  /** Lines that all strip to something starting with `Goal` are all
      collected, stripped. */
  lemma {:induction false} CollectAllGoalLines(lines: seq<string>)
    requires forall i :: 0 <= i < |lines| ==> StartsWith(Strip(lines[i]), "Goal")
    ensures CollectGoals(lines) == StripAll(lines)
    decreases |lines|
  {
    if lines != [] {
      assert StartsWith(Strip(lines[0]), "Goal");
      CollectAllGoalLines(lines[1..]);
    }
  }
}

=== FILE: past_goals.dfy ===
/** The history view (`read_past_goals`, app.py:70-90), modelled as the
    code is written: the whole log is cut at every `---`, which also cuts the
    header line `--- YYYY-MM-DD ---` apart and turns the footer into empty
    pieces and a lone dash. What survives is described by the lemmas at the
    end of the module. */
module PastGoals {
  import opened Wrappers
  import opened Text
  import opened GoalLog

  /** One pair `(date_line, goals)` of the result. */
  datatype GoalEntry = GoalEntry(dateLine: string, goals: seq<string>)

  /** What every kept pair satisfies: a date line, and at least one goal line. */
  predicate WellFormed(e: GoalEntry) {
    && e.dateLine != []
    && e.goals != []
    && forall g :: g in e.goals ==> StartsWith(g, "Goal")
  }

  /** app.py:79: the pieces, stripped, without the blank ones. Order is
      kept (`NonBlankAppend`, `NonBlankSingle`). */
  function NonBlank(chunks: seq<string>): (r: seq<string>)
    ensures |r| <= |chunks|
    ensures forall e :: e in r ==> e != [] && e in StripAll(chunks)
    ensures forall i :: 0 <= i < |chunks| && Strip(chunks[i]) != [] ==> Strip(chunks[i]) in r
  {
    if chunks == [] then []
    else
      var e := Strip(chunks[0]);
      (if e != [] then [e] else []) + NonBlank(chunks[1..])
  }

  /** app.py:83-89 for one piece: its first line is the date line, the `Goal`
      lines after it are the goals, and the piece is kept only when both
      are present. */
  function ParseEntry(entry: string): (r: Option<GoalEntry>)
    ensures r.Some? ==> WellFormed(r.value)
    ensures r.Some? ==> Lines(entry) != [] && r.value.dateLine == Strip(Lines(entry)[0])
    ensures r.Some? ==> r.value.goals == CollectGoals(Lines(entry)[1..])
    ensures r.None? <==> (Lines(entry) == [] || Strip(Lines(entry)[0]) == []
                          || CollectGoals(Lines(entry)[1..]) == [])
  {
    var lines := Lines(entry);
    if lines == [] then None
    else
      var dateLine := Strip(lines[0]);
      var goals := CollectGoals(lines[1..]);
      if dateLine != [] && goals != [] then Some(GoalEntry(dateLine, goals)) else None
  }

  /** The loop of app.py:82-89 over all pieces, in order. */
  function ParseEntries(entries: seq<string>): (r: seq<GoalEntry>)
    ensures |r| <= |entries|
    ensures forall e :: e in r ==> WellFormed(e)
  {
    if entries == [] then []
    else
      match ParseEntry(entries[0])
      case Some(e) => [e] + ParseEntries(entries[1..])
      case None => ParseEntries(entries[1..])
  }

  /** Every pair the parser keeps from a log, in file order. */
  function PastEntries(text: string): (r: seq<GoalEntry>)
    ensures forall e :: e in r ==> WellFormed(e)
  {
    ParseEntries(NonBlank(Split(Strip(text), "---")))
  }

  function Min(a: int, b: int): int { if a <= b then a else b }

  function Max(a: int, b: int): int { if a >= b then a else b }

  /** Python's slice `xs[start:]`: a negative start counts from the end,
      and a start past either end is clamped. */
  function SliceFrom<T>(xs: seq<T>, start: int): (r: seq<T>)
    ensures |r| <= |xs| && r == xs[|xs| - |r|..]
    ensures start >= 0 ==> |r| == Max(|xs| - start, 0)
    ensures start < 0 ==> |r| == Min(-start, |xs|)
  {
    if start >= 0 then (if start <= |xs| then xs[start..] else [])
    else if -start <= |xs| then xs[|xs| + start..] else xs
  }

  /** `read_past_goals(name, days)`: the last `days` kept pairs, oldest
      first; `days == 0` keeps them all, since `[-0:]` is the whole list,
      and a negative `days` drops the first `-days` pairs. */
  function ReadPastGoals(file: Option<string>, days: int): (r: seq<GoalEntry>)
    ensures file.None? ==> r == []
    ensures forall e :: e in r ==> WellFormed(e)
    ensures file.Some? ==> var all := PastEntries(file.value);
      |r| <= |all| && r == all[|all| - |r|..]
    ensures file.Some? && days >= 1 ==> |r| == Min(days, |PastEntries(file.value)|)
    ensures file.Some? && days == 0 ==> r == PastEntries(file.value)
    ensures file.Some? && days < 0 ==> |r| == Max(|PastEntries(file.value)| + days, 0)
    ensures days >= 1 ==> |r| <= days
  {
    match file
    case None => []
    case Some(text) => SliceFrom(PastEntries(text), -days)
  }

  // What the parser makes of the first block saved to a new log.

  /** The pair a block of two or more goals turns into: its first goal line,
      stripped, stands as the date, the other goal lines, stripped, are the
      goals. */
  function FirstSaveEntries(goals: seq<string>): seq<GoalEntry> {
    if |goals| >= 2 then [GoalEntry(Strip(GoalLine(1, goals[0])), StripAll(GoalLines(goals[1..], 2)))]
    else []
  }

  /** Every pair parsed from the first block ever saved: the date is lost, the
      first goal line becomes the date, and a block of a single goal gives
      nothing at all. */
  lemma PastEntriesOfFirstSave(today: string, goals: seq<string>)
    requires IsoDate(today)
    requires forall g :: g in goals ==> NoLineBreak(g) && NoTripleDash(g)
    ensures PastEntries(SaveGoals(None, today, goals)) == FirstSaveEntries(goals)
  {
    var text := SaveGoals(None, today, goals);
    var entries := NonBlank(Split(Strip(text), "---"));
    assert ParseEntries([today]) == [] by {
      DateEntryDropped(today);
    }
    assert ParseEntries(["-"]) == [] by {
      LoneDashDropped();
    }
    if goals == [] {
      assert entries == [today] + ["-"] by {
        EntriesOfFirstSave(today, goals);
      }
      ParseEntriesAppend([today], ["-"]);
    } else {
      var j := TrimEnd(Join(GoalLines(goals, 1), "\n"));
      assert entries == [today] + [j] + ["-"] by {
        EntriesOfFirstSave(today, goals);
      }
      assert ParseEntries([j]) == FirstSaveEntries(goals) by {
        forall g | g in goals
          ensures OneLine(g)
        {
          NoLineBreakOneLine(g);
        }
        ParseJoinedGoalLines(goals);
      }
      ParseEntriesAppend([today] + [j], ["-"]);
      ParseEntriesAppend([today], [j]);
    }
  }

  /** `read_past_goals` on a log holding only its first block: the pairs of
      that block for any `days` of zero or more, and nothing for a negative
      `days`, whose slice skips the one pair there can be. */
  lemma PastGoalsOfFirstSave(today: string, goals: seq<string>, days: int)
    requires IsoDate(today)
    requires forall g :: g in goals ==> NoLineBreak(g) && NoTripleDash(g)
    ensures days >= 0 ==> ReadPastGoals(Some(SaveGoals(None, today, goals)), days) == FirstSaveEntries(goals)
    ensures days < 0 ==> ReadPastGoals(Some(SaveGoals(None, today, goals)), days) == []
  {
    PastEntriesOfFirstSave(today, goals);
  }

  lemma NoLineBreakOneLine(g: string)
    requires NoLineBreak(g)
    ensures OneLine(g)
  {
  }

  /** The non-blank pieces of the first save: the date, the goal lines joined
      by newlines (when there are any), and the lone dash. */
  lemma EntriesOfFirstSave(today: string, goals: seq<string>)
    requires IsoDate(today)
    requires forall g :: g in goals ==> NoTripleDash(g)
    ensures NonBlank(Split(Strip(SaveGoals(None, today, goals)), "---"))
      == [today] + (if goals == [] then [] else [TrimEnd(Join(GoalLines(goals, 1), "\n"))]) + ["-"]
  {
    var chunk := "\n" + Terminated(GoalLines(goals, 1));
    var date := " " + today + " ";
    var middle := if goals == [] then [] else [TrimEnd(Join(GoalLines(goals, 1), "\n"))];
    var pieces := [[], date, chunk] + (Empties(6) + ["-"]);
    assert Split(Strip(SaveGoals(None, today, goals)), "---") == pieces by {
      PiecesOfFirstSave(today, goals);
    }
    assert NonBlank(pieces) == NonBlank([[], date, chunk]) + ["-"] by {
      FooterEntries();
      NonBlankAppend([[], date, chunk], Empties(6) + ["-"]);
    }
    assert NonBlank([chunk]) == middle by {
      GoalChunk(goals);
    }
    HeaderAndGoalEntries(today, chunk, middle);
  }

  /** The pieces before the footer leave the date and what the goal piece
      leaves. */
  lemma HeaderAndGoalEntries(today: string, chunk: string, middle: seq<string>)
    requires IsoDate(today)
    requires NonBlank([chunk]) == middle
    ensures NonBlank([[], " " + today + " ", chunk]) == [today] + middle
  {
    assert NonBlank([[]]) == [] by {
      NonBlankSingle([]);
    }
    DateChunk(today);
    NonBlankThreeParts([], " " + today + " ", chunk, [], [today], middle);
  }

  lemma NonBlankThreeParts(a: string, b: string, c: string, x: seq<string>, y: seq<string>, z: seq<string>)
    requires NonBlank([a]) == x && NonBlank([b]) == y && NonBlank([c]) == z
    ensures NonBlank([a, b, c]) == x + y + z
  {
    NonBlankThree(a, b, c);
  }

  /** The pieces cut from the footer leave only the lone dash. */
  lemma FooterEntries()
    ensures NonBlank(Empties(6) + ["-"]) == ["-"]
  {
    StripIdentity("-");
    NonBlankSingle("-");
    NonBlankEmpties(6);
    NonBlankAppend(Empties(6), ["-"]);
  }

  lemma LoneDashDropped()
    ensures ParseEntry("-") == None
  {
    SplitNoSep("-", '\n');
    assert Lines("-") == ["-"];
    assert Lines("-")[1..] == [];
  }

  /** The special case that makes the discrepancy plain: when the first
      block of a new log holds a single goal, the history is empty, whatever
      number of days is asked for. */
  lemma SingleGoalBlockDropped(today: string, goal: string, days: int)
    requires IsoDate(today)
    requires NoLineBreak(goal) && NoTripleDash(goal)
    ensures ReadPastGoals(Some(SaveGoals(None, today, [goal])), days) == []
  {
    PastEntriesOfFirstSave(today, [goal]);
  }

  function Empties(n: nat): (r: seq<string>)
    ensures |r| == n && forall i :: 0 <= i < n ==> r[i] == []
  {
    seq(n, _ => [])
  }

  function Dashes(n: nat): (r: string)
    ensures |r| == n && forall i :: 0 <= i < n ==> r[i] == '-'
  {
    seq(n, _ => '-')
  }

  /** No three dashes in a row: `split("---")` finds no separator inside. */
  predicate NoTripleDash(x: string) {
    forall k :: 0 <= k < |x| - 2 ==> x[k] != '-' || x[k + 1] != '-' || x[k + 2] != '-'
  }

  /** No three dashes in a row and no dash at the end: no `---` can start
      inside such a text, even when one follows it. */
  predicate NoDashRun(x: string) {
    NoTripleDash(x) && (x == [] || x[|x| - 1] != '-')
  }

  /** Two texts without three dashes in a row, joined where one of them has
      something other than a dash, still have none. */
  lemma NoTripleDashAppend(a: string, b: string)
    requires NoTripleDash(a) && NoTripleDash(b)
    requires (a != [] && a[|a| - 1] != '-') || (b != [] && b[0] != '-')
    ensures NoTripleDash(a + b)
  {
    var s := a + b;
    forall k | 0 <= k < |s| - 2
      ensures s[k] != '-' || s[k + 1] != '-' || s[k + 2] != '-'
    {
      if k + 2 < |a| {
        assert s[k] == a[k] && s[k + 1] == a[k + 1] && s[k + 2] == a[k + 2];
      } else if k >= |a| {
        assert s[k] == b[k - |a|] && s[k + 1] == b[k + 1 - |a|] && s[k + 2] == b[k + 2 - |a|];
      } else if a != [] && a[|a| - 1] != '-' {
        assert s[|a| - 1] == a[|a| - 1];
      } else {
        assert s[|a|] == b[0];
      }
    }
  }

  lemma SplitLeadingSep(y: string)
    ensures Split("---" + y, "---") == [[]] + Split(y, "---")
  {
    var s := "---" + y;
    assert s[..3] == "---";
    assert s[3..] == y;
  }

  lemma {:induction false} SplitAfterDashFree(x: string, y: string)
    requires NoDashRun(x)
    ensures Split(x + "---" + y, "---") == [x] + Split(y, "---")
    decreases |x|
  {
    var s := x + "---" + y;
    if x == [] {
      assert s == "---" + y;
      SplitLeadingSep(y);
    } else {
      assert s[0] == x[0];
      if |x| == 1 {
        assert s[..3] != "---";
      } else if |x| == 2 {
        assert s[1] == x[1];
        assert s[..3] != "---";
      } else {
        assert s[1] == x[1] && s[2] == x[2];
        assert s[..3] != "---";
      }
      assert s[1..] == x[1..] + "---" + y;
      assert NoDashRun(x[1..]);
      SplitAfterDashFree(x[1..], y);
      assert x == [x[0]] + x[1..];
    }
  }

  lemma {:induction false} DashRunSplit(n: nat)
    ensures Split(Dashes(3 * n + 1), "---") == Empties(n) + ["-"]
    decreases n
  {
    if n == 0 {
      assert Dashes(1) == "-";
    } else {
      DashRunSplit(n - 1);
      assert Dashes(3 * n + 1) == "---" + Dashes(3 * (n - 1) + 1);
      SplitLeadingSep(Dashes(3 * (n - 1) + 1));
      assert Empties(n) == [[]] + Empties(n - 1);
    }
  }

  /** The pieces a first saved block is cut into: an empty piece before the
      header, the date between its dashes, the goal lines, then the footer's
      six empty pieces and a lone dash. */
  lemma PiecesOfFirstSave(today: string, goals: seq<string>)
    requires IsoDate(today)
    requires forall g :: g in goals ==> NoTripleDash(g)
    ensures Split(Strip(SaveGoals(None, today, goals)), "---")
      == [[], " " + today + " ", "\n" + Terminated(GoalLines(goals, 1))] + Empties(6) + ["-"]
  {
    var w := Terminated(GoalLines(goals, 1));
    StrippedFirstSave(today, goals);
    NoDashInGoalText(goals);
    PiecesOfBlock(today, w);
  }

  /** Stripping the log after the first save removes the blank line before
      the header and the newline after the footer. */
  lemma StrippedFirstSave(today: string, goals: seq<string>)
    ensures Strip(SaveGoals(None, today, goals))
      == Header(today) + "\n" + Terminated(GoalLines(goals, 1)) + Footer
  {
    var core := Header(today) + "\n" + Terminated(GoalLines(goals, 1)) + Footer;
    assert SaveGoals(None, today, goals) == "\n" + core + "\n";
    assert Footer == Dashes(22);
    assert core[0] == '-' && core[|core| - 1] == '-';
    StripFrame("\n", core, "\n");
  }

  lemma PiecesOfBlock(today: string, w: string)
    requires IsoDate(today)
    requires NoDashRun(w)
    ensures Split(Header(today) + "\n" + w + Footer, "---")
      == [[], " " + today + " ", "\n" + w] + Empties(6) + ["-"]
  {
    var date := " " + today + " ";
    var tail := "\n" + w + "---" + Dashes(19);
    assert Header(today) + "\n" + w + Footer == "---" + (date + "---" + tail) by {
      assert Footer == "---" + Dashes(19);
    }
    ChunkAndFooterPieces(w);
    DateNoDashRun(today);
    OuterPieces(date, tail, "\n" + w, Empties(6) + ["-"]);
  }

  /** A header's two cuts in front of a text that splits into `chunk` and
      `more`. */
  lemma OuterPieces(date: string, tail: string, chunk: string, more: seq<string>)
    requires NoDashRun(date)
    requires Split(tail, "---") == [chunk] + more
    ensures Split("---" + (date + "---" + tail), "---") == [[], date, chunk] + more
  {
    SplitLeadingSep(date + "---" + tail);
    SplitAfterDashFree(date, tail);
    ConcatAssoc([[]], [date], [chunk] + more);
    ConcatAssoc([[]] + [date], [chunk], more);
  }

  /** The goal text and the footer after it: the goal text, six empty pieces
      and a lone dash. */
  lemma ChunkAndFooterPieces(w: string)
    requires NoDashRun(w)
    ensures Split("\n" + w + "---" + Dashes(19), "---") == ["\n" + w] + (Empties(6) + ["-"])
  {
    NewlineNoDashRun(w);
    SplitAfterDashFree("\n" + w, Dashes(19));
    DashRunSplit(6);
  }

  /** The date between the header's spaces holds single dashes only. */
  lemma DateNoDashRun(today: string)
    requires IsoDate(today)
    ensures NoDashRun(" " + today + " ")
  {
    var date := " " + today + " ";
    forall k | 0 <= k < |date| - 2
      ensures date[k] != '-' || date[k + 1] != '-' || date[k + 2] != '-'
    {
      if k != 4 && k != 7 {
        assert date[k + 1] == today[k];
      } else {
        assert date[k] == today[k - 1];
      }
    }
  }

  lemma NewlineNoDashRun(w: string)
    requires NoDashRun(w)
    ensures NoDashRun("\n" + w)
  {
    var chunk := "\n" + w;
    NoTripleDashAppend("\n", w);
    if w != [] {
      assert chunk[|chunk| - 1] == w[|w| - 1];
    }
  }

  lemma NoDashInGoalText(goals: seq<string>)
    requires forall g :: g in goals ==> NoTripleDash(g)
    ensures NoDashRun(Terminated(GoalLines(goals, 1)))
  {
    var lines := GoalLines(goals, 1);
    forall l | l in lines
      ensures NoTripleDash(l)
    {
      var i :| 0 <= i < |lines| && lines[i] == l;
      assert goals[i] in goals;
      NoTripleDashGoalLine(1 + i, goals[i]);
    }
    NoDashTerminated(lines);
  }

  /** A goal line has three dashes in a row only where its goal has. */
  lemma NoTripleDashGoalLine(k: nat, goal: string)
    requires NoTripleDash(goal)
    ensures NoTripleDash(GoalLine(k, goal))
  {
    var prefix := "Goal " + DecimalString(k) + ": ";
    assert '-' !in DecimalString(k);
    assert '-' !in prefix;
    assert prefix[|prefix| - 1] == ' ';
    NoTripleDashAppend(prefix, goal);
  }

  lemma {:induction false} NoDashTerminated(lines: seq<string>)
    requires forall l :: l in lines ==> NoTripleDash(l)
    ensures NoDashRun(Terminated(lines))
    decreases |lines|
  {
    if lines != [] {
      assert lines[0] in lines;
      var rest := Terminated(lines[1..]);
      NoDashTerminated(lines[1..]);
      NoTripleDashAppend(lines[0], "\n");
      NoTripleDashAppend(lines[0] + "\n", rest);
      assert Terminated(lines) == lines[0] + "\n" + rest;
      if rest != [] {
        assert Terminated(lines)[|Terminated(lines)| - 1] == rest[|rest| - 1];
      }
    }
  }

  lemma NonBlankHead(x: string, rest: seq<string>)
    ensures NonBlank([x] + rest) == (if Strip(x) != [] then [Strip(x)] else []) + NonBlank(rest)
  {
    assert ([x] + rest)[0] == x;
    assert ([x] + rest)[1..] == rest;
  }

  lemma {:induction false} NonBlankAppend(a: seq<string>, b: seq<string>)
    ensures NonBlank(a + b) == NonBlank(a) + NonBlank(b)
    decreases |a|
  {
    if a == [] {
      assert a + b == b;
    } else {
      var h := if Strip(a[0]) != [] then [Strip(a[0])] else [];
      assert a + b == [a[0]] + (a[1..] + b);
      assert a == [a[0]] + a[1..];
      NonBlankHead(a[0], a[1..] + b);
      NonBlankHead(a[0], a[1..]);
      NonBlankAppend(a[1..], b);
      ConcatAssoc(h, NonBlank(a[1..]), NonBlank(b));
    }
  }

  lemma NonBlankThree(a: string, b: string, c: string)
    ensures NonBlank([a, b, c]) == NonBlank([a]) + NonBlank([b]) + NonBlank([c])
  {
    NonBlankAppend([a, b], [c]);
    NonBlankAppend([a], [b]);
    assert [a, b, c] == [a, b] + [c];
    assert [a, b] == [a] + [b];
  }

  lemma NonBlankSingle(x: string)
    ensures NonBlank([x]) == if Strip(x) == [] then [] else [Strip(x)]
  {
    assert [x][1..] == [];
  }

  lemma {:induction false} NonBlankEmpties(n: nat)
    ensures NonBlank(Empties(n)) == []
    decreases n
  {
    if n > 0 {
      assert Empties(n)[1..] == Empties(n - 1);
      NonBlankEmpties(n - 1);
    }
  }

  lemma {:induction false} ParseEntriesAppend(a: seq<string>, b: seq<string>)
    ensures ParseEntries(a + b) == ParseEntries(a) + ParseEntries(b)
    decreases |a|
  {
    if a == [] {
      assert a + b == b;
    } else {
      assert (a + b)[0] == a[0];
      assert (a + b)[1..] == a[1..] + b;
      ParseEntriesAppend(a[1..], b);
    }
  }

  /** The piece holding the date strips to the date. */
  lemma DateChunk(today: string)
    requires IsoDate(today)
    ensures NonBlank([" " + today + " "]) == [today]
  {
    StripFrame(" ", today, " ");
  }

  /** The piece holding a date has no goal lines, so it is dropped. */
  lemma DateEntryDropped(today: string)
    requires IsoDate(today)
    ensures ParseEntry(today) == None
  {
    IsoDateOneLine(today);
    SplitNoSep(today, '\n');
    assert Lines(today) == [today];
    assert Lines(today)[1..] == [];
  }

  /** The piece holding the goal lines strips to the lines joined by newlines,
      right-stripped. */
  lemma GoalChunk(goals: seq<string>)
    ensures goals == [] ==> NonBlank(["\n" + Terminated(GoalLines(goals, 1))]) == []
    ensures goals != [] ==>
      NonBlank(["\n" + Terminated(GoalLines(goals, 1))]) == [TrimEnd(Join(GoalLines(goals, 1), "\n"))]
  {
    if goals == [] {
      assert "\n" + Terminated(GoalLines(goals, 1)) == "\n";
      assert Strip("\n") == [];
      NonBlankSingle("\n");
    } else {
      var lines := GoalLines(goals, 1);
      assert lines[0][0] == 'G';
      TerminatedLinesChunk(lines);
    }
  }

  /** Lines written one per line after a newline, the first not starting with
      whitespace, strip to the lines joined by newlines, right-stripped. */
  lemma TerminatedLinesChunk(lines: seq<string>)
    requires lines != [] && lines[0] != [] && !IsSpace(lines[0][0])
    ensures NonBlank(["\n" + Terminated(lines)]) == [TrimEnd(Join(lines, "\n"))]
  {
    var j := Join(lines, "\n");
    assert "\n" + Terminated(lines) == "\n" + j + "\n" by {
      JoinTerminated(lines);
    }
    assert j[0] == lines[0][0];
    StripOpen("\n", j, "\n");
    NonBlankSingle("\n" + j + "\n");
  }

  /** A goal line strips to itself right-stripped, which still starts with
      `Goal`; right-stripping it first changes nothing. */
  lemma StrippedGoalLine(k: nat, g: string)
    ensures var l := GoalLine(k, g); Strip(l) == TrimEnd(l) && Strip(TrimEnd(l)) == Strip(l)
    ensures StartsWith(Strip(GoalLine(k, g)), "Goal")
  {
    var l := GoalLine(k, g);
    var prefix := "Goal " + DecimalString(k);
    var tail := ": " + g;
    var t := TrimEnd(l);
    assert l == prefix + tail;
    assert t == prefix + TrimEnd(tail) by {
      TrimEndAppend(prefix, tail);
    }
    assert l[0] == 'G';
    StripNoLeading(l);
    assert t[..4] == prefix[..4] == "Goal";
    StripIdentity(t);
  }

  /** The joined goal lines, right-stripped, parse to the first line as date
      and the rest as goals, all stripped, which leaves nothing when there is
      only one line. */
  lemma ParseJoinedGoalLines(goals: seq<string>)
    requires goals != []
    requires forall g :: g in goals ==> OneLine(g)
    ensures ParseEntry(TrimEnd(Join(GoalLines(goals, 1), "\n")))
      == if |goals| >= 2 then Some(GoalEntry(Strip(GoalLine(1, goals[0])), StripAll(GoalLines(goals[1..], 2))))
         else None
  {
    var lines := GoalLines(goals, 1);
    GoalLinesOneLine(goals, 1);
    forall i | 0 <= i < |lines|
      ensures lines[i] != [] && !IsSpace(lines[i][0])
      ensures StartsWith(Strip(lines[i]), "Goal") && Strip(TrimEnd(lines[i])) == Strip(lines[i])
    {
      StrippedGoalLine(1 + i, goals[i]);
    }
    ParseTrimmedJoin(lines);
    assert lines[1..] == GoalLines(goals[1..], 2);
  }

  /** Lines that each start with something other than whitespace and strip
      to a `Goal` line, joined by newlines and right-stripped, parse to the
      first line as date and the others as goals, all stripped; one line
      alone parses to nothing. */
  lemma ParseTrimmedJoin(lines: seq<string>)
    requires lines != []
    requires forall l :: l in lines ==> OneLine(l)
    requires forall i :: 0 <= i < |lines| ==> lines[i] != [] && !IsSpace(lines[i][0])
    requires forall i :: 0 <= i < |lines| ==>
      StartsWith(Strip(lines[i]), "Goal") && Strip(TrimEnd(lines[i])) == Strip(lines[i])
    ensures ParseEntry(TrimEnd(Join(lines, "\n")))
      == if |lines| >= 2 then Some(GoalEntry(Strip(lines[0]), StripAll(lines[1..]))) else None
  {
    if |lines| == 1 {
      TrimmedJoinLines(lines);
      assert lines[..0] + [TrimEnd(lines[0])] == [TrimEnd(lines[0])];
      ParseOneLine(TrimEnd(Join(lines, "\n")), TrimEnd(lines[0]));
    } else {
      ParseTrimmedJoinMany(lines);
    }
  }

  lemma ParseTrimmedJoinMany(lines: seq<string>)
    requires |lines| >= 2
    requires forall l :: l in lines ==> OneLine(l)
    requires lines[|lines| - 1] != [] && !IsSpace(lines[|lines| - 1][0])
    requires forall i :: 0 <= i < |lines| ==> StartsWith(Strip(lines[i]), "Goal")
    requires Strip(TrimEnd(lines[|lines| - 1])) == Strip(lines[|lines| - 1])
    ensures ParseEntry(TrimEnd(Join(lines, "\n"))) == Some(GoalEntry(Strip(lines[0]), StripAll(lines[1..])))
  {
    var n := |lines|;
    var t := TrimEnd(lines[n - 1]);
    var middle := lines[1..n - 1];
    SnocTail(lines, t);
    assert forall i :: 0 <= i < |middle| ==> StartsWith(Strip(middle[i]), "Goal") by {
      forall i | 0 <= i < |middle|
        ensures StartsWith(Strip(middle[i]), "Goal")
      {
        assert middle[i] == lines[i + 1];
      }
    }
    CollectGoalsCutLast(middle, lines[n - 1], t);
    TrimmedJoinLines(lines);
    ParseGoalBlock(TrimEnd(Join(lines, "\n")), lines[0], middle + [t], StripAll(lines[1..]));
  }

  /** Goal lines followed by a last line whose right-stripped form strips
      the same way: collecting with the cut last line gives every line,
      stripped. */
  lemma CollectGoalsCutLast(middle: seq<string>, last: string, t: string)
    requires forall i :: 0 <= i < |middle| ==> StartsWith(Strip(middle[i]), "Goal")
    requires StartsWith(Strip(last), "Goal") && Strip(t) == Strip(last)
    ensures CollectGoals(middle + [t]) == StripAll(middle + [last])
  {
    CollectGoalsAppend(middle, [t]);
    CollectGoalsSingle(t);
    CollectAllGoalLines(middle);
    StripAllSnoc(middle, last);
  }

  /** Lines joined by newlines and right-stripped read back as the same lines
      with only the last one right-stripped, when that one does not start
      with whitespace. */
  lemma TrimmedJoinLines(lines: seq<string>)
    requires lines != []
    requires forall l :: l in lines ==> OneLine(l)
    requires var last := lines[|lines| - 1]; last != [] && !IsSpace(last[0])
    ensures var n := |lines|;
      Lines(TrimEnd(Join(lines, "\n"))) == lines[..n - 1] + [TrimEnd(lines[n - 1])]
  {
    var n := |lines|;
    var cut := lines[..n - 1] + [TrimEnd(lines[n - 1])];
    TrimEndJoin(lines, "\n");
    CutLinesOneLine(lines);
    SplitOfJoin(cut);
    LinesOfUnterminated(Join(cut, "\n"));
  }

  /** Right-stripping the last of several lines keeps every one of them on one
      line. */
  lemma CutLinesOneLine(lines: seq<string>)
    requires lines != []
    requires forall l :: l in lines ==> OneLine(l)
    ensures var n := |lines|;
      forall l :: l in lines[..n - 1] + [TrimEnd(lines[n - 1])] ==> OneLine(l)
  {
    var n := |lines|;
    var t := TrimEnd(lines[n - 1]);
    assert lines[n - 1] in lines;
    forall l | l in lines[..n - 1] + [t]
      ensures OneLine(l)
    {
      if l != t {
        assert l in lines;
      }
    }
  }

  /** A piece of a single line has no goal lines, so it is dropped. */
  lemma ParseOneLine(entry: string, line: string)
    requires Lines(entry) == [line]
    ensures ParseEntry(entry) == None
  {
    assert [line][1..] == [];
  }

  /** A piece whose first line is not blank and whose other lines hold goal
      lines parses to that first line, stripped, as date and those goal
      lines as goals. */
  lemma ParseGoalBlock(entry: string, first: string, rest: seq<string>, goals: seq<string>)
    requires Lines(entry) == [first] + rest
    requires Strip(first) != [] && CollectGoals(rest) == goals && goals != []
    ensures ParseEntry(entry) == Some(GoalEntry(Strip(first), goals))
  {
    assert ([first] + rest)[1..] == rest;
  }

  lemma {:induction false} JoinTerminated(lines: seq<string>)
    requires lines != []
    ensures Terminated(lines) == Join(lines, "\n") + "\n"
    decreases |lines|
  {
    if |lines| > 1 {
      JoinTerminated(lines[1..]);
    }
  }

  /** Splitting lines joined by newlines gives the lines back. */
  lemma SplitOfJoin(lines: seq<string>)
    requires lines != []
    requires forall l :: l in lines ==> OneLine(l)
    ensures Split(Join(lines, "\n"), "\n") == lines
  {
    var j := Join(lines, "\n");
    JoinTerminated(lines);
    SplitTerminated(lines);
    SplitAt(j, '\n', []);
    assert j + "\n" == j + ['\n'] + [];
    var p := Split(j, "\n");
    assert p + [[]] == lines + [[]];
    assert p == (p + [[]])[..|p|];
    assert lines == (lines + [[]])[..|lines|];
  }
}

=== FILE: streak.dfy ===
/** The per-user visit streak (`update_streak`, app.py:8-34).

    Calendar dates are day numbers, so "yesterday" is `today - 1`; the clock
    read is the `today` parameter. The two-line streak file is either absent,
    a record that parsed, or text that did not parse (a date `strptime`
    rejects or a count `int()` rejects), which the source lets raise. */
module Streak {
  import opened Wrappers

  /** The two lines of `<name>_streak.txt`: the last visit and the count. */
  datatype Record = Record(day: int, count: int)

  datatype Stored = Valid(rec: Record) | Malformed

  /** What one call yields: the streak it returns and the record it writes,
      if it writes one. */
  datatype Visit = Visit(streak: int, write: Option<Record>)

  datatype StreakError = UnreadableRecord

  /** `update_streak` for one visit on day `today`. */
  function UpdateStreak(file: Option<Stored>, today: int): (r: Result<Visit, StreakError>)
    // Only an unreadable record makes the call fail.
    ensures r.Failure? <==> file == Some(Malformed)
    // After a successful call the file holds today's date and the count returned.
    ensures r.Success? ==> FileAfter(file, r.value) == Some(Valid(Record(today, r.value.streak)))
    // The file is rewritten on every branch except a second visit on the same day.
    ensures r.Success? ==> (r.value.write == None <==> LastVisit(file) == Some(today))
    // A first visit, a gap of two days or more, or a stored date in the
    // future starts again at one.
    ensures r.Success? && LastVisit(file) != Some(today) && LastVisit(file) != Some(today - 1)
      ==> r.value.streak == 1
    // A visit on the day after the stored one extends the streak by one.
    ensures r.Success? && LastVisit(file) == Some(today - 1)
      ==> r.value.streak == file.value.rec.count + 1
    // A repeated visit on the same day returns the stored count.
    ensures r.Success? && LastVisit(file) == Some(today)
      ==> r.value.streak == file.value.rec.count
  {
    match file
    case None => Success(Visit(1, Some(Record(today, 1))))
    case Some(Malformed) => Failure(UnreadableRecord)
    case Some(Valid(rec)) =>
      var yesterday := today - 1;
      if rec.day == yesterday then
        Success(Visit(rec.count + 1, Some(Record(today, rec.count + 1))))
      else if rec.day == today then
        Success(Visit(rec.count, None))
      else
        Success(Visit(1, Some(Record(today, 1))))
  }

  /** The day of the stored record, if one was read. */
  function LastVisit(file: Option<Stored>): Option<int> {
    match file
    case Some(Valid(rec)) => Some(rec.day)
    case _ => None
  }

  /** The streak file after a call: the record written, or the file as it was. */
  function FileAfter(file: Option<Stored>, v: Visit): Option<Stored> {
    match v.write
    case Some(rec) => Some(Valid(rec))
    case None => file
  }

  /** The state after one visit on `today` (a failed call writes nothing). */
  function Step(file: Option<Stored>, today: int): Option<Stored> {
    match UpdateStreak(file, today)
    case Success(v) => FileAfter(file, v)
    case Failure(_) => file
  }

  /** The state after visiting on `n` consecutive days starting at `first`. */
  function VisitDays(file: Option<Stored>, first: int, n: nat): Option<Stored>
    decreases n
  {
    if n == 0 then file else VisitDays(Step(file, first), first + 1, n - 1)
  }

  /** Calling twice on the same day returns the same count both times and the
      second call writes nothing. */
  lemma SameDayIdempotent(file: Option<Stored>, today: int)
    requires file != Some(Malformed)
    ensures var first := UpdateStreak(file, today).value;
      var second := UpdateStreak(FileAfter(file, first), today);
      second.Success? && second.value.streak == first.streak && second.value.write == None
  {
  }

  /** Once a streak is positive it stays positive: every successful call
      returns, and stores, a count of at least one. */
  lemma StreakStaysPositive(file: Option<Stored>, today: int)
    requires file.Some? ==> file.value.Valid? && file.value.rec.count >= 1
    ensures UpdateStreak(file, today).value.streak >= 1
    ensures Step(file, today).Some? && Step(file, today).value.rec.count >= 1
  {
  }

  /** A streak stored for the day before `first`, followed by visits on `n`
      consecutive days, grows by exactly `n`. */
  lemma {:induction false} ConsecutiveDaysExtend(first: int, count: int, n: nat)
    ensures VisitDays(Some(Valid(Record(first - 1, count))), first, n)
      == Some(Valid(Record(first - 1 + n, count + n)))
    decreases n
  {
    if n > 0 {
      assert Step(Some(Valid(Record(first - 1, count))), first)
        == Some(Valid(Record(first, count + 1)));
      ConsecutiveDaysExtend(first + 1, count + 1, n - 1);
    }
  }

  /** A new user who visits on `n` consecutive days has a streak of `n`,
      stored under the last of those days. */
  lemma ConsecutiveDaysFromScratch(first: int, n: nat)
    requires n >= 1
    ensures VisitDays(None, first, n) == Some(Valid(Record(first + n - 1, n)))
  {
    assert Step(None, first) == Some(Valid(Record(first, 1)));
    ConsecutiveDaysExtend(first + 1, 1, n - 1);
  }

  /** Missing a day loses the streak, however long it was. */
  lemma MissedDayResets(rec: Record, today: int)
    requires rec.day < today - 1
    ensures UpdateStreak(Some(Valid(rec)), today) == Success(Visit(1, Some(Record(today, 1))))
  {
  }
}

=== FILE: text.dfy ===
/** The string handling the goal logs depend on, in the shape Python gives it:
    `str.strip()`, `str.startswith`, `str.split(sep)`, `str.splitlines()` /
    `readlines()` and `str(n)` for a natural number.

    Simplification: lines are separated by `'\n'` only, so neither the other
    line boundaries of `splitlines()` nor the translation of `'\r'` by files
    opened in text mode is modelled. */
module Text {

  /** The characters Python's `str.strip()` removes: those `str.isspace()`
      accepts. */
  predicate IsSpace(c: char) {
    || c == ' ' || ('\t' <= c <= '\r') || ('\U{1C}' <= c <= '\U{1F}')
    || c == '\U{85}' || c == '\U{A0}' || c == '\U{1680}'
    || ('\U{2000}' <= c <= '\U{200A}')
    || c == '\U{2028}' || c == '\U{2029}' || c == '\U{202F}' || c == '\U{205F}'
    || c == '\U{3000}'
  }

  /** The characters Python's `str.splitlines()` ends a line at. */
  predicate IsLineBreak(c: char) {
    || ('\n' <= c <= '\r') || ('\U{1C}' <= c <= '\U{1E}')
    || c == '\U{85}' || c == '\U{2028}' || c == '\U{2029}'
  }

  /** A text `str.splitlines()` leaves in one piece. */
  predicate NoLineBreak(s: string) {
    forall i :: 0 <= i < |s| ==> !IsLineBreak(s[i])
  }

  predicate IsDigit(c: char) {
    '0' <= c <= '9'
  }

  predicate StartsWith(s: string, prefix: string) {
    |prefix| <= |s| && s[..|prefix|] == prefix
  }

  /** How many whitespace characters `str.lstrip()` removes: the character
      after them, if any, is not whitespace. */
  function LeadingSpace(s: string): (n: nat)
    ensures n <= |s|
    ensures n == |s| || !IsSpace(s[n])
  {
    if |s| > 0 && IsSpace(s[0]) then 1 + LeadingSpace(s[1..]) else 0
  }

  /** How many whitespace characters `str.rstrip()` removes: the character
      before them, if any, is not whitespace. */
  function TrailingSpace(s: string): (n: nat)
    ensures n <= |s|
    ensures n == |s| || !IsSpace(s[|s| - 1 - n])
  {
    if |s| > 0 && IsSpace(s[|s| - 1]) then 1 + TrailingSpace(s[..|s| - 1]) else 0
  }

  /** What `str.lstrip()` removes is whitespace. */
  lemma {:induction false} LeadingSpaceIsSpace(s: string)
    ensures forall i :: 0 <= i < LeadingSpace(s) ==> IsSpace(s[i])
    decreases |s|
  {
    if |s| > 0 && IsSpace(s[0]) {
      LeadingSpaceIsSpace(s[1..]);
      assert forall i :: 1 <= i < LeadingSpace(s) ==> s[i] == s[1..][i - 1];
    }
  }

  /** What `str.rstrip()` removes is whitespace. */
  lemma {:induction false} TrailingSpaceIsSpace(s: string)
    ensures forall i :: |s| - TrailingSpace(s) <= i < |s| ==> IsSpace(s[i])
    decreases |s|
  {
    if |s| > 0 && IsSpace(s[|s| - 1]) {
      TrailingSpaceIsSpace(s[..|s| - 1]);
    }
  }

  /** `str.strip()`: the result neither starts nor ends with whitespace. */
  function Strip(s: string): (r: string)
    ensures r == [] || (!IsSpace(r[0]) && !IsSpace(r[|r| - 1]))
  {
    var a := LeadingSpace(s);
    var b := TrailingSpace(s[a..]);
    s[a..|s| - b]
  }

  /** A text strips to nothing exactly when it is made of whitespace only. */
  lemma StripBlank(s: string)
    ensures Strip(s) == [] <==> forall i :: 0 <= i < |s| ==> IsSpace(s[i])
  {
    var a := LeadingSpace(s);
    LeadingSpaceIsSpace(s);
    if a < |s| {
      assert !IsSpace(s[a]);
      var rest := s[a..];
      TrailingSpaceIsSpace(rest);
      assert rest[0] == s[a];
    }
  }

  /** `str.rstrip()`: a prefix of the text with only whitespace cut off, and
      which does not itself end with whitespace. */
  function TrimEnd(s: string): (r: string)
    ensures |r| <= |s| && r == s[..|r|]
    ensures r == [] || !IsSpace(r[|r| - 1])
    ensures s != [] && !IsSpace(s[0]) ==> r != []
  {
    TrailingSpaceIsSpace(s);
    s[..|s| - TrailingSpace(s)]
  }

  /** What `str.rstrip()` cuts off is whitespace. */
  lemma TrimEndCutsSpace(s: string)
    ensures forall i :: |TrimEnd(s)| <= i < |s| ==> IsSpace(s[i])
  {
    TrailingSpaceIsSpace(s);
  }

  /** Whitespace cut from the end of a text never reaches past a
      non-whitespace character in front of it. */
  lemma {:induction false} TrailingSpaceAppend(a: string, b: string)
    requires b != [] && !IsSpace(b[0])
    ensures TrailingSpace(a + b) == TrailingSpace(b)
    decreases |b|
  {
    var s := a + b;
    assert s[|s| - 1] == b[|b| - 1];
    if IsSpace(b[|b| - 1]) {
      assert s[..|s| - 1] == a + b[..|b| - 1];
      TrailingSpaceAppend(a, b[..|b| - 1]);
    }
  }

  /** Whitespace added at the end is cut off along with what was there. */
  lemma {:induction false} TrailingSpaceOfBlank(a: string, b: string)
    requires forall i :: 0 <= i < |b| ==> IsSpace(b[i])
    ensures TrailingSpace(a + b) == TrailingSpace(a) + |b|
    decreases |b|
  {
    var s := a + b;
    if b == [] {
      assert s == a;
    } else {
      assert s[|s| - 1] == b[|b| - 1];
      assert s[..|s| - 1] == a + b[..|b| - 1];
      TrailingSpaceOfBlank(a, b[..|b| - 1]);
    }
  }

  /** Right-stripping text behind a non-whitespace character leaves that text
      alone. */
  lemma TrimEndAppend(a: string, b: string)
    requires b != [] && !IsSpace(b[0])
    ensures TrimEnd(a + b) == a + TrimEnd(b)
  {
    TrailingSpaceAppend(a, b);
    assert (a + b)[..|a + b| - TrailingSpace(b)] == a + b[..|b| - TrailingSpace(b)];
  }

  /** Stripping a text surrounded by whitespace and not itself starting with
      whitespace gives that text right-stripped. */
  lemma StripOpen(pre: string, s: string, post: string)
    requires forall i :: 0 <= i < |pre| ==> IsSpace(pre[i])
    requires forall i :: 0 <= i < |post| ==> IsSpace(post[i])
    requires s != [] && !IsSpace(s[0])
    ensures Strip(pre + s + post) == TrimEnd(s)
  {
    assert pre + s + post == pre + (s + post);
    StripDropLeading(pre, s + post);
    StripNoLeading(s + post);
    TrimEndOfBlank(s, post);
  }

  /** Whitespace in front of a non-whitespace character makes no difference
      to the strip. */
  lemma StripDropLeading(a: string, b: string)
    requires forall i :: 0 <= i < |a| ==> IsSpace(a[i])
    requires b != [] && !IsSpace(b[0])
    ensures Strip(a + b) == Strip(b)
  {
    LeadingSpaceOfBlank(a, b);
    assert LeadingSpace(b) == 0;
    assert (a + b)[|a|..] == b;
    assert b[0..] == b;
  }

  /** Whitespace added at the end makes no difference to the right-strip. */
  lemma TrimEndOfBlank(s: string, post: string)
    requires forall i :: 0 <= i < |post| ==> IsSpace(post[i])
    ensures TrimEnd(s + post) == TrimEnd(s)
  {
    TrailingSpaceOfBlank(s, post);
    assert (s + post)[..|s| - TrailingSpace(s)] == s[..|s| - TrailingSpace(s)];
  }

  /** Whitespace put in front is all that `str.lstrip()` removes, when a
      non-whitespace character follows it. */
  lemma {:induction false} LeadingSpaceOfBlank(a: string, b: string)
    requires forall i :: 0 <= i < |a| ==> IsSpace(a[i])
    requires b != [] && !IsSpace(b[0])
    ensures LeadingSpace(a + b) == |a|
    decreases |a|
  {
    var s := a + b;
    if a == [] {
      assert s == b;
    } else {
      assert s[0] == a[0];
      assert s[1..] == a[1..] + b;
      LeadingSpaceOfBlank(a[1..], b);
    }
  }

  /** A text not starting with whitespace strips to its right-strip. */
  lemma StripNoLeading(s: string)
    requires s != [] && !IsSpace(s[0])
    ensures Strip(s) == TrimEnd(s)
  {
    assert LeadingSpace(s) == 0;
    assert s[0..] == s;
  }

  /** Stripping a text surrounded by whitespace and not itself starting or
      ending with whitespace gives back exactly that text. */
  lemma StripFrame(pre: string, s: string, post: string)
    requires forall i :: 0 <= i < |pre| ==> IsSpace(pre[i])
    requires forall i :: 0 <= i < |post| ==> IsSpace(post[i])
    requires s != [] && !IsSpace(s[0]) && !IsSpace(s[|s| - 1])
    ensures Strip(pre + s + post) == s
  {
    StripOpen(pre, s, post);
    assert TrailingSpace(s) == 0;
  }

  /** A text with no whitespace at either end is its own strip. */
  lemma StripIdentity(s: string)
    requires s != [] && !IsSpace(s[0]) && !IsSpace(s[|s| - 1])
    ensures Strip(s) == s
  {
    StripFrame([], s, []);
    assert [] + s + [] == s;
  }

  /** Concatenation regroups freely. */
  lemma ConcatAssoc<T>(x: seq<T>, y: seq<T>, z: seq<T>)
    ensures x + (y + z) == (x + y) + z
  {
  }

  /** Taking the first element off a sequence that a single element and a
      tail follow. */
  lemma ConsRegroup<T>(x: seq<T>, d: T, rest: seq<T>)
    requires x != []
    ensures x + [d] + rest == [x[0]] + (x[1..] + [d] + rest)
  {
  }

  /** Replacing the last of several elements: the result is the first
      element, the ones in between, and the new last one; and the original,
      after its first element, is the ones in between and its last. */
  lemma SnocTail<T>(xs: seq<T>, t: T)
    requires |xs| >= 2
    ensures xs[..|xs| - 1] + [t] == [xs[0]] + (xs[1..|xs| - 1] + [t])
    ensures xs[1..] == xs[1..|xs| - 1] + [xs[|xs| - 1]]
  {
  }

  /** Python's `s.split(sep)` for a non-empty separator: scanning left to
      right, every non-overlapping occurrence of `sep` cuts the text. */
  function Split(s: string, sep: string): (r: seq<string>)
    requires sep != []
    ensures |r| >= 1
    decreases |s|
  {
    if |s| < |sep| then [s]
    else if s[..|sep|] == sep then [[]] + Split(s[|sep|..], sep)
    else
      var rest := Split(s[1..], sep);
      [[s[0]] + rest[0]] + rest[1..]
  }

  /** `sep.join(parts)`. */
  function Join(parts: seq<string>, sep: string): string
    requires |parts| >= 1
  {
    if |parts| == 1 then parts[0] else parts[0] + sep + Join(parts[1..], sep)
  }

  /** Joining the pieces of a split with the same separator restores the text. */
  lemma {:induction false} JoinSplit(s: string, sep: string)
    requires sep != []
    ensures Join(Split(s, sep), sep) == s
    decreases |s|
  {
    if |s| < |sep| {
    } else if s[..|sep|] == sep {
      JoinSplit(s[|sep|..], sep);
      var rest := Split(s[|sep|..], sep);
      assert Split(s, sep) == [[]] + rest;
      assert ([[]] + rest)[1..] == rest;
      assert s == s[..|sep|] + s[|sep|..];
    } else {
      JoinSplit(s[1..], sep);
      var rest := Split(s[1..], sep);
      var r := Split(s, sep);
      assert r == [[s[0]] + rest[0]] + rest[1..];
      if |rest| == 1 {
        assert r == [[s[0]] + rest[0]];
      } else {
        assert r[1..] == rest[1..];
        assert Join(rest, sep) == rest[0] + sep + Join(rest[1..], sep);
      }
      assert s == [s[0]] + s[1..];
    }
  }

  /** Splitting a text without any occurrence of the separator character
      gives the text alone. */
  lemma {:induction false} SplitNoSep(s: string, c: char)
    requires c !in s
    ensures Split(s, [c]) == [s]
    decreases |s|
  {
    if |s| >= 1 {
      assert s[..1] == [s[0]];
      SplitNoSep(s[1..], c);
      assert [s[0]] + s[1..] == s;
    }
  }

  /** Splitting on a one-character separator distributes over an occurrence
      of that character: the pieces of the text before it come first, then
      the pieces of the text after it. */
  lemma {:induction false} SplitAt(a: string, c: char, b: string)
    ensures Split(a + [c] + b, [c]) == Split(a, [c]) + Split(b, [c])
    decreases |a|
  {
    var s := a + [c] + b;
    var rb := Split(b, [c]);
    if a == [] {
      assert Split(s, [c]) == [[]] + rb by {
        SplitConsSep(s, c);
        assert s[1..] == b;
      }
    } else {
      var ra := Split(a[1..], [c]);
      assert Split(s[1..], [c]) == ra + rb by {
        assert s[1..] == a[1..] + [c] + b;
        SplitAt(a[1..], c, b);
      }
      if a[0] == c {
        assert Split(s, [c]) == [[]] + (ra + rb) by {
          SplitConsSep(s, c);
        }
        assert Split(a, [c]) == [[]] + ra by {
          SplitConsSep(a, c);
        }
        assert [[]] + (ra + rb) == ([[]] + ra) + rb;
      } else {
        assert Split(s, [c]) == [[a[0]] + ra[0]] + (ra[1..] + rb) by {
          SplitConsOther(s, c);
          assert (ra + rb)[0] == ra[0];
          assert (ra + rb)[1..] == ra[1..] + rb;
        }
        assert Split(a, [c]) == [[a[0]] + ra[0]] + ra[1..] by {
          SplitConsOther(a, c);
        }
      }
    }
  }

  /** A text starting with the separator character splits into an empty
      piece, then the pieces of the rest. */
  lemma SplitConsSep(s: string, c: char)
    requires |s| >= 1 && s[0] == c
    ensures Split(s, [c]) == [[]] + Split(s[1..], [c])
  {
    assert s[..1] == [c];
  }

  /** A text starting with another character puts that character at the
      front of the first piece of the rest. */
  lemma SplitConsOther(s: string, c: char)
    requires |s| >= 1 && s[0] != c
    ensures var rest := Split(s[1..], [c]); Split(s, [c]) == [[s[0]] + rest[0]] + rest[1..]
  {
    assert s[..1] != [c];
  }

  /** Python's `splitlines()`, and equally the stripped result of
      `readlines()`: the pieces between newlines, without an empty piece after
      a final newline. */
  function Lines(s: string): (r: seq<string>)
    ensures r == [] <==> s == []
  {
    var pieces := Split(s, "\n");
    JoinSplit(s, "\n");
    if pieces[|pieces| - 1] == [] then pieces[..|pieces| - 1] else pieces
  }

  /** A text whose last piece is not empty has its pieces as its lines. */
  lemma LinesOfUnterminated(s: string)
    requires var p := Split(s, "\n"); p[|p| - 1] != []
    ensures Lines(s) == Split(s, "\n")
  {
  }

  /** No line holds a newline. */
  lemma LinesHaveNoNewline(s: string)
    ensures forall l :: l in Lines(s) ==> '\n' !in l
  {
    SplitPiecesHaveNoSep(s, '\n');
  }

  /** Joining the lines with newlines gives back the text, and the final
      newline is dropped exactly when the text ends with one. */
  lemma LinesJoin(s: string)
    requires s != []
    ensures s[|s| - 1] == '\n' ==> Join(Lines(s), "\n") + "\n" == s
    ensures s[|s| - 1] != '\n' ==> Join(Lines(s), "\n") == s
  {
    var pieces := Split(s, "\n");
    JoinSplit(s, "\n");
    if pieces[|pieces| - 1] == [] {
      JoinSnoc(pieces[..|pieces| - 1], [], "\n");
      assert pieces[..|pieces| - 1] + [[]] == pieces;
    } else {
      assert Lines(s) == pieces;
      JoinLast(pieces, "\n");
      SplitPiecesHaveNoSep(s, '\n');
      var last := pieces[|pieces| - 1];
      assert last in pieces;
      assert last[|last| - 1] in last;
    }
  }

  /** A join ends with the last character of its last part, when that part
      is not empty. */
  lemma {:induction false} JoinLast(lines: seq<string>, sep: string)
    requires lines != [] && lines[|lines| - 1] != []
    ensures var j := Join(lines, sep); j != [] && j[|j| - 1] == lines[|lines| - 1][|lines[|lines| - 1]| - 1]
    decreases |lines|
  {
    if |lines| > 1 {
      JoinLast(lines[1..], sep);
    }
  }

  /** Joining with one more part at the end appends the separator and it. */
  lemma {:induction false} JoinSnoc(parts: seq<string>, last: string, sep: string)
    requires parts != []
    ensures Join(parts + [last], sep) == Join(parts, sep) + sep + last
    decreases |parts|
  {
    var all := parts + [last];
    assert all[0] == parts[0];
    if |parts| > 1 {
      assert all[1..] == parts[1..] + [last];
      JoinSnoc(parts[1..], last, sep);
    } else {
      assert all[1..] == [last];
    }
  }

  /** Right-stripping lines joined together only touches the last line, when
      that line starts with something other than whitespace. */
  lemma TrimEndJoin(lines: seq<string>, sep: string)
    requires lines != []
    requires var last := lines[|lines| - 1]; last != [] && !IsSpace(last[0])
    ensures var n := |lines|;
      TrimEnd(Join(lines, sep)) == Join(lines[..n - 1] + [TrimEnd(lines[n - 1])], sep)
  {
    var n := |lines|;
    var last := lines[n - 1];
    if n == 1 {
      assert lines[..0] + [TrimEnd(last)] == [TrimEnd(last)];
    } else {
      var init := lines[..n - 1];
      assert lines == init + [last];
      JoinSnoc(init, last, sep);
      TrimEndAppend(Join(init, sep) + sep, last);
      JoinSnoc(init, TrimEnd(last), sep);
    }
  }

  /** No piece of a split on one character contains that character. */
  lemma {:induction false} SplitPiecesHaveNoSep(s: string, c: char)
    ensures forall p :: p in Split(s, [c]) ==> c !in p
    decreases |s|
  {
    if |s| >= 1 {
      assert s[..1] == [s[0]];
      SplitPiecesHaveNoSep(s[1..], c);
    }
  }

  /** `f"{n}"` for a natural number: its decimal digits, most significant
      first, without leading zeros. */
  function DecimalString(n: nat): (r: string)
    ensures |r| >= 1
    ensures forall i :: 0 <= i < |r| ==> IsDigit(r[i])
    ensures r[0] == '0' ==> n == 0
  {
    if n < 10 then [Digit(n)] else DecimalString(n / 10) + [Digit(n % 10)]
  }

  function Digit(d: nat): (c: char)
    requires d < 10
    ensures IsDigit(c)
  {
    (d + '0' as int) as char
  }

  function DigitValue(c: char): (d: nat)
    requires IsDigit(c)
    ensures d < 10
  {
    c as int - '0' as int
  }

  /** Reads a string of decimal digits back as a number, as Python's `int()` does. */
  function DecimalValue(s: string): nat
    requires forall i :: 0 <= i < |s| ==> IsDigit(s[i])
  {
    if s == [] then 0
    else DecimalValue(s[..|s| - 1]) * 10 + DigitValue(s[|s| - 1])
  }

  /** Rendering a number in decimal and reading it back gives the number. */
  lemma {:induction false} DecimalRoundTrip(n: nat)
    ensures DecimalValue(DecimalString(n)) == n
  {
    if n >= 10 {
      DecimalRoundTrip(n / 10);
      var s := DecimalString(n);
      assert s[..|s| - 1] == DecimalString(n / 10);
    }
  }

  /** The stripped form of every line. */
  function StripAll(lines: seq<string>): (r: seq<string>)
    ensures |r| == |lines|
    ensures forall i :: 0 <= i < |lines| ==> r[i] == Strip(lines[i])
  {
    if lines == [] then [] else [Strip(lines[0])] + StripAll(lines[1..])
  }

  /** Stripping one more line adds its strip at the end. */
  lemma StripAllSnoc(lines: seq<string>, x: string)
    ensures StripAll(lines + [x]) == StripAll(lines) + [Strip(x)]
  {
  }

  /** The lines of a text are its pieces, without the empty piece after a
      final newline. */
  lemma LinesOfPieces(s: string)
    ensures var p := Split(s, "\n"); Lines(s) == p || Lines(s) + [[]] == p
  {
  }

  /** A non-empty text that is not among the stripped lines is not among the
      stripped pieces either: the only extra piece is the empty one after a
      final newline. */
  lemma AbsentFromLinesAbsentFromPieces(s: string, x: string)
    requires x != [] && x !in StripAll(Lines(s))
    ensures x !in StripAll(Split(s, "\n"))
  {
    LinesOfPieces(s);
    AbsentBeforeEmpty(Lines(s), Split(s, "\n"), x);
  }

  lemma AbsentBeforeEmpty(lines: seq<string>, pieces: seq<string>, x: string)
    requires x != [] && x !in StripAll(lines)
    requires pieces == lines || pieces == lines + [[]]
    ensures x !in StripAll(pieces)
  {
    forall i | 0 <= i < |pieces|
      ensures StripAll(pieces)[i] != x
    {
      if i < |lines| {
        assert pieces[i] == lines[i];
        assert StripAll(lines)[i] in StripAll(lines);
      } else {
        assert Strip(pieces[i]) == [];
      }
    }
  }
}

=== FILE: today_goals.dfy ===
/** Reading today's goals back from the goal log (`get_today_goals`,
    app.py:92-112). A log that does not exist is `None`. */
module TodayGoals {
  import opened Wrappers
  import opened Text
  import opened GoalLog

  /** Whether the log has a header line for `today`. */
  predicate HasBlockFor(log: string, today: string) {
    Header(today) in StripAll(Lines(log))
  }

  /** The loop of `get_today_goals` over the remaining `lines`; `inside`
      says whether today's header has been seen. */
  function ScanToday(lines: seq<string>, header: string, inside: bool): (r: seq<string>)
    ensures |r| <= |lines|
    ensures forall g :: g in r ==> StartsWith(g, "Goal") && g in StripAll(lines)
    ensures !inside && header !in StripAll(lines) ==> r == []
    decreases |lines|
  {
    if lines == [] then []
    else
      var line := Strip(lines[0]);
      assert StripAll(lines) == [line] + StripAll(lines[1..]);
      if line == header then ScanToday(lines[1..], header, true)
      else if inside && StartsWith(line, "Goal") then [line] + ScanToday(lines[1..], header, true)
      else if inside && StartsWith(line, "-") then []
      else ScanToday(lines[1..], header, inside)
  }

  /** `get_today_goals(name)` on day `today`: the stripped `Goal` lines that
      follow today's header, up to the next line starting with a dash. */
  function GetTodayGoals(file: Option<string>, today: string): (r: seq<string>)
    ensures file.None? ==> r == []
    ensures file.Some? && !HasBlockFor(file.value, today) ==> r == []
    ensures forall g :: g in r ==> StartsWith(g, "Goal")
    ensures file.Some? ==> forall g :: g in r ==> g in StripAll(Lines(file.value))
  {
    match file
    case None => []
    case Some(text) => ScanToday(Lines(text), Header(today), false)
  }

  /** Saving goals on a day that has no block yet, then reading today's goals,
      gives back exactly the numbered goal lines, in input order. */
  lemma SaveThenGetToday(file: Option<string>, today: string, goals: seq<string>)
    requires IsoDate(today)
    requires forall g :: g in goals ==> PlainGoal(g)
    requires !HasBlockFor(Contents(file), today)
    ensures GetTodayGoals(Some(SaveGoals(file, today, goals)), today) == GoalLines(goals, 1)
  {
    var h := Header(today);
    var lines := GoalLines(goals, 1);
    var text := SaveGoals(file, today, goals);
    var prior := Split(Contents(file), "\n");
    var block := [h] + lines + [Footer];
    assert Lines(text) == prior + block by {
      IsoDateOneLine(today);
      forall g | g in goals ensures OneLine(g) {}
      LinesOfSavedLog(file, today, goals);
    }
    assert h !in StripAll(prior) by {
      AbsentFromLinesAbsentFromPieces(Contents(file), h);
    }
    assert Strip(h) == h by {
      GoalLinesReadable(goals, today);
      StripIdentity(h);
    }
    GoalLinesReadable(goals, today);
    ReadBackBlock(prior, h, lines, []);
    assert block + [] == block;
  }

  /** Saving goals twice on the same day (starting from a log with no block
      for that day) and then reading today's goals gives the first save's
      goal lines: the reader stops at the first block's footer. */
  lemma SaveTwiceSameDay(file: Option<string>, today: string, first: seq<string>, second: seq<string>)
    requires IsoDate(today)
    requires forall g :: g in first ==> PlainGoal(g)
    requires forall g :: g in second ==> OneLine(g)
    requires !HasBlockFor(Contents(file), today)
    ensures GetTodayGoals(Some(SaveGoals(Some(SaveGoals(file, today, first)), today, second)), today)
      == GoalLines(first, 1)
  {
    var h := Header(today);
    var lines := GoalLines(first, 1);
    var prior := Split(Contents(file), "\n");
    var rest := [[]] + ([h] + GoalLines(second, 1) + [Footer]);
    forall g | g in first ensures OneLine(g) {}
    LinesOfTwoSaves(file, today, first, second);
    assert h !in StripAll(prior) by {
      AbsentFromLinesAbsentFromPieces(Contents(file), h);
    }
    assert Strip(h) == h by {
      GoalLinesReadable(first, today);
      StripIdentity(h);
    }
    GoalLinesReadable(first, today);
    ReadBackBlock(prior, h, lines, rest);
  }

  /** Read line by line, a log saved twice on the same day is the old lines,
      the first block, the empty line before the second header, and the
      second block. */
  lemma LinesOfTwoSaves(file: Option<string>, today: string, first: seq<string>, second: seq<string>)
    requires IsoDate(today)
    requires forall g :: g in first ==> OneLine(g)
    requires forall g :: g in second ==> OneLine(g)
    ensures var h := Header(today);
      Lines(SaveGoals(Some(SaveGoals(file, today, first)), today, second))
      == Split(Contents(file), "\n")
         + ([h] + GoalLines(first, 1) + [Footer] + ([[]] + ([h] + GoalLines(second, 1) + [Footer])))
  {
    var h := Header(today);
    var lines := GoalLines(first, 1);
    var text := SaveGoals(file, today, first);
    var prior := Split(Contents(file), "\n");
    var block2 := [h] + GoalLines(second, 1) + [Footer];
    var head := [h] + lines + [Footer];
    assert prior + [h] + lines + [Footer, []] + block2 == prior + (head + ([[]] + block2)) by {
      Regroup(prior, h, lines, Footer, block2);
    }
    IsoDateOneLine(today);
    assert Lines(SaveGoals(Some(text), today, second)) == Split(text, "\n") + block2 by {
      LinesOfSavedLog(Some(text), today, second);
      assert Contents(Some(text)) == text;
    }
    assert Split(text, "\n") == prior + [h] + lines + [Footer, []];
  }

  /** Regroups the pieces of a log saved twice: the empty piece after the
      first footer joins the second block. The footer is a parameter here,
      which keeps the solver from spelling out its 22 characters. */
  lemma Regroup(prior: seq<string>, h: string, lines: seq<string>, f: string, next: seq<string>)
    ensures prior + [h] + lines + [f, []] + next == prior + ([h] + lines + [f] + ([[]] + next))
  {
  }

  /** Every numbered goal line is its own strip, starts with `Goal`, and is
      neither a header nor the footer. */
  lemma GoalLinesReadable(goals: seq<string>, today: string)
    requires IsoDate(today)
    requires forall g :: g in goals ==> PlainGoal(g)
    ensures Header(today) != Footer
    ensures forall l :: l in GoalLines(goals, 1) ==> Strip(l) == l && StartsWith(l, "Goal") && l != Header(today)
  {
    var h := Header(today);
    var lines := GoalLines(goals, 1);
    assert |h| == 18;
    assert |Footer| == 22;
    assert h[0] == '-';
    forall l | l in lines
      ensures Strip(l) == l && StartsWith(l, "Goal") && l != h
    {
      var i :| 0 <= i < |lines| && lines[i] == l;
      assert goals[i] in goals;
      GoalLineIsStripped(1 + i, goals[i]);
      assert l[0] == 'G';
    }
  }

  /** Read line by line, a log after `save_goals` is its earlier pieces
      followed by the new block's lines. */
  lemma LinesOfSavedLog(file: Option<string>, today: string, goals: seq<string>)
    requires OneLine(today)
    requires forall g :: g in goals ==> OneLine(g)
    ensures Lines(SaveGoals(file, today, goals))
      == Split(Contents(file), "\n") + ([Header(today)] + GoalLines(goals, 1) + [Footer])
  {
    var text := SaveGoals(file, today, goals);
    var block := [Header(today)] + GoalLines(goals, 1) + [Footer];
    var pieces := Split(text, "\n");
    assert pieces == Split(Contents(file), "\n") + block + [[]];
    assert pieces[|pieces| - 1] == [];
    assert pieces[..|pieces| - 1] == Split(Contents(file), "\n") + block;
  }

  /** Lines without the header, then a block opened by the header: the block's
      goal lines are read, whatever follows its footer. */
  lemma ReadBackBlock(prior: seq<string>, h: string, lines: seq<string>, rest: seq<string>)
    requires h !in StripAll(prior)
    requires Strip(h) == h && h != Footer
    requires forall l :: l in lines ==> Strip(l) == l && StartsWith(l, "Goal") && l != h
    ensures ScanToday(prior + ([h] + lines + [Footer] + rest), h, false) == lines
  {
    ScanSkips(prior, [h] + lines + [Footer] + rest, h);
    ScanReadsBlock(lines, h, rest);
  }

  /** A block opened by `h` and closed by the footer yields its goal lines,
      whatever follows the footer. */
  lemma ScanReadsBlock(lines: seq<string>, h: string, rest: seq<string>)
    requires Strip(h) == h && h != Footer
    requires forall l :: l in lines ==> Strip(l) == l && StartsWith(l, "Goal") && l != h
    ensures ScanToday([h] + lines + [Footer] + rest, h, false) == lines
  {
    var all := [h] + lines + [Footer] + rest;
    assert all[0] == h;
    assert all[1..] == lines + [Footer] + rest;
    FooterShape();
    ScanStopsAtDash(lines, Footer, rest, h);
  }

  lemma {:induction false} ScanSkips(prefix: seq<string>, rest: seq<string>, h: string)
    requires h !in StripAll(prefix)
    ensures ScanToday(prefix + rest, h, false) == ScanToday(rest, h, false)
    decreases |prefix|
  {
    if prefix == [] {
      assert prefix + rest == rest;
    } else {
      ScanSkipsFirst(prefix, rest, h);
      ScanSkips(prefix[1..], rest, h);
    }
  }

  lemma ScanSkipsFirst(prefix: seq<string>, rest: seq<string>, h: string)
    requires prefix != [] && h !in StripAll(prefix)
    ensures ScanToday(prefix + rest, h, false) == ScanToday(prefix[1..] + rest, h, false)
    ensures h !in StripAll(prefix[1..])
  {
    var all := prefix + rest;
    assert all[0] == prefix[0];
    assert Strip(prefix[0]) == StripAll(prefix)[0] != h;
    assert all[1..] == prefix[1..] + rest;
    assert StripAll(prefix[1..]) == StripAll(prefix)[1..];
  }

  /** After the header, goal lines are collected up to the first later line
      that strips to something starting with a dash (other than the header
      itself); nothing after that line is read. */
  lemma {:induction false} ScanStopsAtDash(lines: seq<string>, d: string, rest: seq<string>, h: string)
    requires forall l :: l in lines ==> Strip(l) == l && StartsWith(l, "Goal") && l != h
    requires StartsWith(Strip(d), "-") && Strip(d) != h
    ensures ScanToday(lines + [d] + rest, h, true) == lines
    decreases |lines|
  {
    if lines == [] {
      assert lines + [d] + rest == [d] + rest;
      ScanDashStep(d, rest, h);
    } else {
      var more := lines[1..] + [d] + rest;
      ConsRegroup(lines, d, rest);
      assert lines[0] in lines;
      ScanGoalStep(lines[0], more, h);
      ScanStopsAtDash(lines[1..], d, rest, h);
      assert [lines[0]] + lines[1..] == lines;
    }
  }

  /** Inside today's block, a goal line is collected and the scan goes on. */
  lemma ScanGoalStep(l: string, more: seq<string>, h: string)
    requires Strip(l) == l && StartsWith(l, "Goal") && l != h
    ensures ScanToday([l] + more, h, true) == [l] + ScanToday(more, h, true)
  {
    assert ([l] + more)[0] == l;
    assert ([l] + more)[1..] == more;
  }

  /** Inside today's block, a line starting with a dash other than the header
      ends the scan. */
  lemma ScanDashStep(d: string, more: seq<string>, h: string)
    requires StartsWith(Strip(d), "-") && Strip(d) != h
    ensures ScanToday([d] + more, h, true) == []
  {
    assert ([d] + more)[0] == d;
    assert Strip(d)[0] == '-';
    assert !StartsWith(Strip(d), "Goal");
  }

  // Today's block in general: lines inside it that are neither goal lines
  // nor dash-led are read past, and so is a repeated header.

  /** A log whose lines are some lines without today's header, a line that
      strips to that header, a block none of whose lines starts with a dash
      (other than a repeated header), then a dash-led line: today's goals are
      the block's stripped `Goal` lines, whatever comes after. */
  lemma TodayBlockClosed(log: string, today: string, prior: seq<string>, hl: string,
                         lines: seq<string>, d: string, rest: seq<string>)
    requires Lines(log) == prior + [hl] + lines + [d] + rest
    requires Header(today) !in StripAll(prior) && Strip(hl) == Header(today)
    requires forall i :: 0 <= i < |lines| ==>
      Strip(lines[i]) == Header(today) || !StartsWith(Strip(lines[i]), "-")
    requires StartsWith(Strip(d), "-") && Strip(d) != Header(today)
    ensures GetTodayGoals(Some(log), today) == CollectGoals(lines)
  {
    HeaderIsNoGoal(today);
    ReadClosedBlock(prior, hl, lines, d, rest, Header(today));
  }

  /** The same without a closing line: a block that runs to the end of the
      log, as one left by an interrupted save, gives its stripped `Goal`
      lines. */
  lemma TodayBlockOpen(log: string, today: string, prior: seq<string>, hl: string, lines: seq<string>)
    requires Lines(log) == prior + [hl] + lines
    requires Header(today) !in StripAll(prior) && Strip(hl) == Header(today)
    requires forall i :: 0 <= i < |lines| ==>
      Strip(lines[i]) == Header(today) || !StartsWith(Strip(lines[i]), "-")
    ensures GetTodayGoals(Some(log), today) == CollectGoals(lines)
  {
    HeaderIsNoGoal(today);
    ReadOpenBlock(prior, hl, lines, Header(today));
  }

  /** `TodayBlockClosed` for any header `h` that is not a goal line. */
  lemma ReadClosedBlock(prior: seq<string>, hl: string, lines: seq<string>, d: string, rest: seq<string>, h: string)
    requires h !in StripAll(prior) && Strip(hl) == h && !StartsWith(h, "Goal")
    requires forall i :: 0 <= i < |lines| ==> Strip(lines[i]) == h || !StartsWith(Strip(lines[i]), "-")
    requires StartsWith(Strip(d), "-") && Strip(d) != h
    ensures ScanToday(prior + [hl] + lines + [d] + rest, h, false) == CollectGoals(lines)
  {
    var before := prior + [hl] + lines;
    ConcatAssoc(before, [d], rest);
    ScanDashStep(d, rest, h);
    ReadBlockThen(prior, hl, lines, [d] + rest, h);
    assert CollectGoals(lines) + [] == CollectGoals(lines);
  }

  /** `TodayBlockOpen` for any header `h` that is not a goal line. */
  lemma ReadOpenBlock(prior: seq<string>, hl: string, lines: seq<string>, h: string)
    requires h !in StripAll(prior) && Strip(hl) == h && !StartsWith(h, "Goal")
    requires forall i :: 0 <= i < |lines| ==> Strip(lines[i]) == h || !StartsWith(Strip(lines[i]), "-")
    ensures ScanToday(prior + [hl] + lines, h, false) == CollectGoals(lines)
  {
    var before := prior + [hl] + lines;
    assert before + [] == before;
    ReadBlockThen(prior, hl, lines, [], h);
    assert CollectGoals(lines) + [] == CollectGoals(lines);
  }

  /** Lines without the header `h`, a line that strips to it, then a run of
      lines none of which is dash-led (a repeated header aside): the run's
      goal lines are read and the scan goes on, inside the block, with what
      follows. */
  lemma ReadBlockThen(prior: seq<string>, hl: string, lines: seq<string>, more: seq<string>, h: string)
    requires h !in StripAll(prior) && Strip(hl) == h && !StartsWith(h, "Goal")
    requires forall i :: 0 <= i < |lines| ==> Strip(lines[i]) == h || !StartsWith(Strip(lines[i]), "-")
    ensures ScanToday(prior + [hl] + lines + more, h, false) == CollectGoals(lines) + ScanToday(more, h, true)
  {
    ConcatAssoc(prior + [hl], lines, more);
    ConcatAssoc(prior, [hl], lines + more);
    ScanSkips(prior, [hl] + (lines + more), h);
    ScanHeaderStep(hl, lines + more, h);
    ScanPassesBlock(lines, more, h);
  }

  lemma HeaderIsNoGoal(today: string)
    ensures !StartsWith(Header(today), "Goal")
  {
    assert Header(today)[0] == '-';
  }

  /** A line that strips to the header opens the block. */
  lemma ScanHeaderStep(hl: string, more: seq<string>, h: string)
    requires Strip(hl) == h
    ensures ScanToday([hl] + more, h, false) == ScanToday(more, h, true)
  {
    assert ([hl] + more)[0] == hl;
    assert ([hl] + more)[1..] == more;
  }

  /** Inside today's block, a run of lines none of which starts with a dash
      (a repeated header aside) contributes its stripped `Goal` lines and
      the scan goes on after it. */
  lemma {:induction false} ScanPassesBlock(lines: seq<string>, more: seq<string>, h: string)
    requires !StartsWith(h, "Goal")
    requires forall i :: 0 <= i < |lines| ==> Strip(lines[i]) == h || !StartsWith(Strip(lines[i]), "-")
    ensures ScanToday(lines + more, h, true) == CollectGoals(lines) + ScanToday(more, h, true)
    decreases |lines|
  {
    if lines == [] {
      assert lines + more == more;
    } else {
      var x := lines[0];
      var tail := lines[1..];
      assert lines + more == [x] + (tail + more);
      assert lines == [x] + tail;
      ScanBlockStep(x, tail + more, h);
      assert forall i :: 0 <= i < |tail| ==> tail[i] == lines[i + 1];
      ScanPassesBlock(tail, more, h);
      CollectGoalsAppend([x], tail);
      ConcatAssoc(CollectGoals([x]), CollectGoals(tail), ScanToday(more, h, true));
    }
  }

  /** Inside today's block, a line that strips to the header or to anything
      not starting with a dash is read past, its strip collected when it is
      a `Goal` line. */
  lemma ScanBlockStep(x: string, more: seq<string>, h: string)
    requires !StartsWith(h, "Goal")
    requires Strip(x) == h || !StartsWith(Strip(x), "-")
    ensures ScanToday([x] + more, h, true) == CollectGoals([x]) + ScanToday(more, h, true)
  {
    assert ([x] + more)[0] == x;
    assert ([x] + more)[1..] == more;
    CollectGoalsSingle(x);
  }
}

=== FILE: wrappers.dfy ===
/** Optional values and results with an error, shared by every module of the model. */
module Wrappers {

  /** A value that may be absent: a file that does not exist, a block that is dropped. */
  datatype Option<+T> = None | Some(value: T) {

    /** The wrapped value, or `default` when there is none. */
    function GetOr(default: T): T {
      match this
      case Some(v) => v
      case None => default
    }
  }

  /** The outcome of an operation the source lets raise an exception. */
  datatype Result<+R, +E> = Success(value: R) | Failure(error: E)
}
